=== FILE: README.md ===
# Tourism front-end: a Dafny model of its logic

This project models the sequential logic of a React tourism front-end. The front-end is a tour catalogue with a booking dialog, an admin area for tours, and a contact-submission inbox. The network, the timer and the browser storage are inputs of the model. What is modelled:

- **Localization** (`localization.dfy`):
  - the translation dictionary;
  - the `t` resolver, with its fallback order: active language, then English, then the key;
  - the language cell, its start from storage, and how it is persisted.
- **Tour records** (`tours.dfy`): the localized title and description rule, written once and shared by the card, the detail page and the booking dialog.
- **Tour card** (`card.dfy`): image, date locale, amenity icons, and the details link.
- **Detail page** (`detail.dfy`):
  - amenities, hero image, gallery and render guards;
  - the additional-information rows;
  - the page's state cells.
- **Image URLs** (`images.dfy`): `getImageUrl`.
- **Submission store** (`submission_data.dfy`):
  - the module-level list of contact submissions and its seed;
  - prepend, update of the first match, delete by id, and the statistics.
- **Admin inbox view** (`triage.dfy`):
  - the status filter and selection bookkeeping;
  - badge colours, stars, and the button-disable rules.
- **Tour editor** (`tour_form.dfy`):
  - per-field updates;
  - photo append with trimming and remove-at-index;
  - loading an existing tour;
  - choosing the submit target and the submit flag.
- **Photo slider** (`slider.dfy`): the cyclic index with JavaScript's `%`, and what is rendered.
- **Tour list section** (`catalog.dfy`):
  - the decision `fetchTours` makes over `tours`, `error` and `isLoading`;
  - the `limit` cut and the sample-tour fallback;
  - the demo notice and the render branch.
- **Booking dialog** (`booking.dfy`): the `idle → success | error → idle` state machine and the payload it sends.
- **Admin dashboard** (`dashboard.dfy`): tour count, booked count, revenue, and the five recent tours.
- **Header** (`navigation.dfy`): the language switcher, the navigation highlight, and the scroll and menu cells.
- **Helpers** (`seqs.dfy`, `strings.dfy`): sequence and string helpers (filter, find, slice, sum, trim, split) that the modules above share.

Stateful components become classes whose methods state their whole new state. Pure decisions become functions with contracts, plus lemmas that relate them.

Where a JavaScript operation differs from Dafny's, the model writes it out:

- `%` truncates toward zero (`Slider.JsRem`);
- `slice` takes a negative end (`Seqs.SliceTo`);
- `||` falls back on an empty string;
- `trim` removes exactly ECMAScript's WhiteSpace and LineTerminator characters: tab, line feed, vertical tab, form feed, carriage return and space, plus U+00A0, U+1680, U+2000–U+200A, U+2028, U+2029, U+202F, U+205F, U+3000 and U+FEFF.

## Model

| member | source | states |
|---|---|---|
| Localization.FieldFor | src/contexts/LanguageContext.tsx:94 | `translation[language]`: defined exactly for the four language codes; `en` picks the English string |
| Localization.Localized | src/contexts/LanguageContext.tsx:94 | active-language text when it is non-empty, English otherwise, including for an unrecognised language; empty only if English is empty |
| Localization.Resolve | src/contexts/LanguageContext.tsx:91-95 | an absent key resolves to itself; a present key resolves to its non-empty active-language text, else English, else the key; never empty for a non-empty key |
| Localization.TranslationsComplete | src/contexts/LanguageContext.tsx:14-71 | every dictionary entry has non-empty strings for all four languages |
| Localization.ResolveListedKey | src/contexts/LanguageContext.tsx:16-70 | for a listed key and a language code, `t` returns exactly the stored string |
| Localization.AdminKeysResolveToThemselves | src/pages/admin/ContactSubmissionsPage.tsx:45 | `admin_panel`, `dashboard` and `sign_out` are not in the dictionary, so each resolves to itself in every language |
| Localization.InitialLanguage | src/contexts/LanguageContext.tsx:82-85 | the stored `language` value when present and non-empty, with no membership check; otherwise `en` |
| Localization.LanguageProvider.constructor | src/contexts/LanguageContext.tsx:82-89 | the language starts from storage and the effect writes it back, so storage holds the active language |
| Localization.LanguageProvider.SetLanguage | src/contexts/LanguageContext.tsx:87-89 | the new language becomes active and is stored under `language`; the storage invariant is kept |
| Localization.LanguageProvider.T | src/contexts/LanguageContext.tsx:91-95 | an unknown key gives itself; a known key gives the stored string under a language code, and English under any other stored string |
| Localization.LanguageProvider.Reload | src/contexts/LanguageContext.tsx:83-84 | a provider mounted on the persisted storage starts at the language last set |
| Localization.SwitchScenario | src/contexts/LanguageContext.tsx:82-95 | from empty storage `nav_home` reads "Home"; after switching it reads "Главная", then "Bas bet"; an unknown key reads itself; a reload restores `kaa` |
| Tours.Title | src/components/TourCard.tsx:17-20 | `title_<language>` when non-empty, else `title_en`; an unrecognised language reads English |
| Tours.Description | src/components/TourCard.tsx:22-25 | the same rule over descriptions, falling back to `description_en` |
| Tours.CoverImage | src/pages/TourDetail.tsx:97 | the first photo's url when it exists and is non-empty, else the fallback; never empty for a non-empty fallback |
| Card.CardImage | src/components/TourCard.tsx:41 | the card image is the first photo's url when it exists and is non-empty; with no photos, or an empty first url, the Unsplash placeholder; never empty |
| Card.DateLocale | src/components/TourCard.tsx:28 | `ru-RU` iff the language is `ru`, `en-US` otherwise |
| Card.Icons | src/components/TourCard.tsx:82-96 | utensils iff breakfast, wifi iff wifi, bus iff the transport text is non-empty |
| Card.DetailsLink | src/components/TourCard.tsx:111 | the link is `/tours/` followed by the tour's id |
| Detail.HeroImage | src/pages/TourDetail.tsx:97 | the hero is the first photo's url when it exists and is non-empty; with no photos, or an empty first url, the wide placeholder; never empty |
| Detail.Amenities | src/pages/TourDetail.tsx:83-88 | four entries, in the order breakfast, lunch, dinner, wifi, each carrying the tour's own flag |
| Detail.AmenityLabelsTranslated | src/pages/TourDetail.tsx:83-88 | every amenity label is a dictionary key, so it shows its stored translation and never the raw key |
| Detail.TransportRow | src/pages/TourDetail.tsx:162-168 | the transport row shows iff the tour names a transport, and then shows that transport |
| Detail.Gallery | src/pages/TourDetail.tsx:217-220 | the gallery exists iff there are more than one photo, and then holds every photo but the first, in order |
| Detail.InfoRowAsWritten | src/pages/TourDetail.tsx:175-178 | the page as written renders every additional-information row with an empty heading and an empty text |
| Detail.InfoRowFor | src/pages/TourDetail.tsx:175-178 | corrected row: the localized heading and text, non-empty whenever the English field is |
| Detail.InfoRowsLost | src/pages/TourDetail.tsx:175-178 | for an entry with English "Meals" / "Three a day", the page as written shows an empty row and the corrected one shows both |
| Detail.InfoRows | src/pages/TourDetail.tsx:171-180 | one row per additional-information entry, in order |
| Detail.View | src/pages/TourDetail.tsx:38-57 | loading shows the spinner; loaded with no tour shows "Tour not found"; otherwise the page for that tour |
| Detail.TourDetail.constructor | src/pages/TourDetail.tsx:17-21 | no tour, loading, dialog closed |
| Detail.TourDetail.FetchTour | src/pages/TourDetail.tsx:23-36 | without a route id the page keeps loading; otherwise the response data becomes the tour, an error keeps the old tour, and loading ends |
| Detail.TourDetail.OpenBooking | src/pages/TourDetail.tsx:205-206 | the book button opens the dialog and nothing else changes |
| Detail.TourDetail.CloseBooking | src/pages/TourDetail.tsx:238 | closing the dialog changes nothing else |
| Images.GetImageUrl | src/lib/utils.ts:9-21 | a missing or empty path gives the placeholder; an `http` path is kept; any other path gets the `/api` prefix; the result is non-empty and starts with `http` or `/api` |
| Images.AbsoluteResultIsFixed | src/lib/utils.ts:15-17 | a second application is the identity on results starting with `http`, the placeholder included |
| Images.RelativeResultIsPrefixedTwice | src/lib/utils.ts:15-20 | a relative path is prefixed again on a second pass, so the function is not idempotent |
| SubmissionData.StatusName | src/data/contactSubmissions.ts:10 | the three statuses map to `new`, `read` and `replied`, one-to-one |
| SubmissionData.AverageRatingTenths | src/data/contactSubmissions.ts:80-87 | 0 for an empty store; otherwise the mean rating rounded half-up to tenths: 2n·r ≤ 20·sum + n < 2n·(r + 1) |
| SubmissionData.AverageWithinRatingRange | src/data/contactSubmissions.ts:80-87 | with every rating in [lo, hi], the rounded average (in tenths) lies in [10·lo, 10·hi] |
| SubmissionData.Stats | src/data/contactSubmissions.ts:77-89 | `total` is the store length; `new` counts the new entries: it equals the total iff all are new and is 0 iff none is; an empty store gives zeros; the average is `AverageRatingTenths` of the list |
| SubmissionData.StatsPrepend | src/data/contactSubmissions.ts:78-79 | a prepended submission raises the total by one and the new count by one exactly when it is new; with the empty store at zero, `new` is the count of new entries |
| SubmissionData.SeedFacts | src/data/contactSubmissions.ts:14-48 | the seed has ids "1", "2", "3", exactly one new entry, and an average of 4.7 |
| SubmissionData.StatusUpdated | src/data/contactSubmissions.ts:66-71 | only the first entry with the id changes, and only its status; an absent id leaves the list unchanged |
| SubmissionData.StatusUpdatedAtIndex | src/data/contactSubmissions.ts:67-70 | the `findIndex` and index-assignment implementation equals the recursive definition |
| SubmissionData.WithoutId | src/data/contactSubmissions.ts:73-75 | removes exactly the entries with the id and keeps every other entry as many times as it occurs; it is a no-op iff the id is absent |
| SubmissionData.DeleteKeepsOrderAndIsIdempotent | src/data/contactSubmissions.ts:73-75 | the survivors keep their order, and deleting twice equals deleting once |
| SubmissionData.SubmissionStore.constructor | src/data/contactSubmissions.ts:14-48 | the store starts as the seed list |
| SubmissionData.SubmissionStore.GetAll | src/data/contactSubmissions.ts:50-52 | a copy with the store's contents in its order |
| SubmissionData.SubmissionStore.Add | src/data/contactSubmissions.ts:54-64 | the new entry has the supplied id and time and status new; it goes first, ahead of the old entries in their order |
| SubmissionData.SubmissionStore.UpdateStatus | src/data/contactSubmissions.ts:66-71 | the store becomes `StatusUpdated` of the old store |
| SubmissionData.SubmissionStore.Delete | src/data/contactSubmissions.ts:73-75 | the store becomes `WithoutId` of the old store |
| SubmissionData.SubmissionStore.GetStats | src/data/contactSubmissions.ts:77-89 | the statistics of the current store |
| Triage.Filtered | src/components/admin/ContactSubmissions.tsx:29-31 | `all` keeps everything; a status keeps exactly the submissions with that status, each as many times as it occurs |
| Triage.FilteredOrderAndEmptyState | src/components/admin/ContactSubmissions.tsx:147-150 | the filtered list keeps the store's order, and it is empty (so "No submissions found" shows) iff no submission passes |
| Triage.StatusColor | src/components/admin/ContactSubmissions.tsx:61-68 | `new`, `read` and `replied` get their classes; any other string gets the default |
| Triage.BadgeColorsDistinct | src/components/admin/ContactSubmissions.tsx:165 | the three statuses get three distinct colours, never the default |
| Triage.RenderStars | src/components/admin/ContactSubmissions.tsx:70-80 | one flag per star 1..5, in order, set iff the star does not exceed the rating |
| Triage.FilledStars | src/components/admin/ContactSubmissions.tsx:73-79 | the filled stars are exactly the first ones, as many as the rating clamped to 0..5 |
| Triage.MarkButtons | src/components/admin/ContactSubmissions.tsx:239-248 | the two mark buttons are never both disabled, and both are enabled iff the status is new |
| Triage.ContactSubmissions.constructor | src/components/admin/ContactSubmissions.tsx:14-27 | mounting loads the store's list and statistics, with no selection and filter `all` |
| Triage.ContactSubmissions.Visible | src/components/admin/ContactSubmissions.tsx:29-31 | the shown rows are exactly the loaded submissions that pass the filter, each as often as in the list; under `all` they are the whole list |
| Triage.ContactSubmissions.LoadSubmissions | src/components/admin/ContactSubmissions.tsx:23-27 | the view holds the store's contents and its statistics |
| Triage.ContactSubmissions.HandleStatusChange | src/components/admin/ContactSubmissions.tsx:33-39 | updates the store and reloads; the selection gets the new status only if its id matches |
| Triage.ContactSubmissions.HandleDelete | src/components/admin/ContactSubmissions.tsx:41-49 | nothing happens unless confirmed; then it deletes and reloads, and clears the selection only if the selection was deleted |
| Triage.ContactSubmissions.Select | src/components/admin/ContactSubmissions.tsx:158 | clicking a row selects it and nothing else changes |
| Triage.ContactSubmissions.SetFilter | src/components/admin/ContactSubmissions.tsx:132-141 | the drop-down sets the filter and nothing else changes |
| TourEditor.InitialFormIsBlank | src/pages/admin/AdminTourForm.tsx:48-69 | in the initial form every string is empty and every flag false, with no photos, cost 0 and one seat |
| TourEditor.WithField | src/pages/admin/AdminTourForm.tsx:114-116 | field `f` reads the new value and every other field is unchanged |
| TourEditor.WithFieldLaws | src/pages/admin/AdminTourForm.tsx:114-116 | writing a field's own value back is a no-op; of two writes to one field the later one wins |
| TourEditor.WithoutIndex | src/pages/admin/AdminTourForm.tsx:128-133 | removes exactly position i and keeps the others in order; an out-of-range i leaves the list as it was |
| TourEditor.RemoveUndoesAppend | src/pages/admin/AdminTourForm.tsx:118-133 | removing the photo just appended restores the list |
| TourEditor.PhotoUrls | src/pages/admin/AdminTourForm.tsx:108 | the photos' urls, position by position |
| TourEditor.FormFromTour | src/pages/admin/AdminTourForm.tsx:87-111 | copies every field; each date is `BeforeFirst(date, 'T')`, the part before its first `T`; photos become their urls (none when missing) |
| TourEditor.DateCut | src/pages/admin/AdminTourForm.tsx:103-104 | a date without `T` is kept; otherwise it is cut exactly at its first `T` |
| TourEditor.SubmitTarget | src/pages/admin/AdminTourForm.tsx:140-144 | PATCH on `/turs/{id}` iff editing, POST on `/turs` otherwise |
| TourEditor.AdminTourForm.constructor | src/pages/admin/AdminTourForm.tsx:77-79 | the initial form, an empty photo input, not submitting |
| TourEditor.AdminTourForm.HandleChange | src/pages/admin/AdminTourForm.tsx:114-116 | the form becomes `WithField` of the old form |
| TourEditor.AdminTourForm.SetNewPhotoUrl | src/pages/admin/AdminTourForm.tsx:476-478 | the photo input holds the typed text |
| TourEditor.AdminTourForm.AddPhoto | src/pages/admin/AdminTourForm.tsx:118-126 | a non-blank input is appended, trimmed, at the end and the input is cleared; a blank input changes nothing |
| TourEditor.AdminTourForm.RemovePhoto | src/pages/admin/AdminTourForm.tsx:128-133 | the photos become `WithoutIndex` of the old photos |
| TourEditor.AdminTourForm.LoadExisting | src/pages/admin/AdminTourForm.tsx:87-112 | a fetched tour replaces the whole form through `FormFromTour`; no tour leaves the form alone |
| TourEditor.AdminTourForm.BeginSubmit | src/pages/admin/AdminTourForm.tsx:135-144 | the submitting flag goes up and the request uses `SubmitTarget` |
| TourEditor.AdminTourForm.FinishSubmit | src/pages/admin/AdminTourForm.tsx:166-177 | the flag goes down after either outcome, and only success navigates to `/admin/tours` |
| Slider.JsRem | src/components/PhotoSlider.tsx:25-31 | JavaScript `%` keeps the dividend's sign and stays within the divisor |
| Slider.JsQuot | src/components/PhotoSlider.tsx:25-31 | JavaScript's truncating quotient: non-negative for a non-negative dividend, non-positive otherwise |
| Slider.JsDivision | src/components/PhotoSlider.tsx:25-31 | `a == n · JsQuot(a, n) + JsRem(a, n)`, which with the sign and range of `JsRem` pins the remainder to JavaScript's `%` |
| Slider.NextStep | src/components/PhotoSlider.tsx:25-27 | on a valid index, next stays in [0, n), steps forward, and wraps the last index to 0 |
| Slider.PrevStep | src/components/PhotoSlider.tsx:29-31 | on a valid index, previous stays in [0, n), steps back, and wraps 0 to n−1 |
| Slider.PrevNextInverse | src/components/PhotoSlider.tsx:25-31 | previous after next is the identity on valid indices, and so is next after previous |
| Slider.Render | src/components/PhotoSlider.tsx:38-105 | nothing for no photos; otherwise the current photo under `/api`; controls, counter `index+1 / n` and thumbnails only for n > 1, with exactly the current thumbnail highlighted |
| Slider.PhotoSlider.constructor | src/components/PhotoSlider.tsx:23 | the index starts at the initial index |
| Slider.PhotoSlider.Next | src/components/PhotoSlider.tsx:25-27 | the index becomes `NextIndex` of the old index and stays in range |
| Slider.PhotoSlider.Prev | src/components/PhotoSlider.tsx:29-31 | the index becomes `PrevIndex` of the old index and stays in range |
| Slider.PhotoSlider.SelectThumbnail | src/components/PhotoSlider.tsx:100 | clicking thumbnail k sets the index to k |
| Catalog.ApplyLimit | src/components/ToursSection.tsx:108 | a missing or zero limit keeps every tour; a positive limit keeps the first min(limit, n) tours, in order |
| Catalog.Settle | src/components/ToursSection.tsx:101-127 | non-array data gives no tours; data is cut by the limit with the error cleared; the back-end-down message gives the limited sample tours and no error; any other message becomes the error, and an empty message becomes "Failed to load tours", with no tours |
| Catalog.FallbackIsDemo | src/components/ToursSection.tsx:177 | the sample fallback shows the demo notice iff the limit leaves any tour |
| Catalog.Branch | src/components/ToursSection.tsx:134-203 | exactly one branch: spinner while loading, then the error panel, the grid for a non-empty list, or the empty message |
| Catalog.FetchNeverSpins | src/components/ToursSection.tsx:122-124 | after any fetch the spinner is gone, and the error panel shows iff a message other than the back-end-down one was thrown |
| Catalog.ToursSection.constructor | src/components/ToursSection.tsx:95-99 | no tours, loading, no error, no selection, dialog closed |
| Catalog.ToursSection.FetchTours | src/components/ToursSection.tsx:101-127 | the new tours and error are `Settle` of the old tours and the outcome, and loading ends |
| Catalog.ToursSection.HandleBook | src/components/ToursSection.tsx:129-132 | the selected tour is set and the dialog opens |
| Catalog.ToursSection.CloseBooking | src/components/ToursSection.tsx:210-213 | closing clears the selection and closes the dialog |
| BookingFlow.View | src/components/BookingModal.tsx:32-89 | nothing without a tour; the success or error panel by status; otherwise the form, titled with the localized title, whose submit is disabled while loading |
| BookingFlow.BookingModal.constructor | src/components/BookingModal.tsx:24-30 | the form is ("", "", 1), status idle, not loading |
| BookingFlow.BookingModal.SetFullName | src/components/BookingModal.tsx:103 | only the name changes |
| BookingFlow.BookingModal.SetPhoneNumber | src/components/BookingModal.tsx:115 | only the phone number changes |
| BookingFlow.BookingModal.SetSeats | src/components/BookingModal.tsx:129 | only the seat count changes |
| BookingFlow.BookingModal.BeginSubmit | src/components/BookingModal.tsx:39-48 | loading on, status idle, and the payload is the tour's id plus the current form |
| BookingFlow.BookingModal.FinishSubmit | src/components/BookingModal.tsx:49-61 | status becomes success or error by the outcome, and loading is off after either |
| BookingFlow.BookingModal.SuccessTimer | src/components/BookingModal.tsx:51-55 | the delayed step requests closing, returns to idle, and resets the form to ("", "", 1) |
| BookingFlow.BookingModal.TryAgain | src/components/BookingModal.tsx:81-85 | from error, back to idle with the form untouched |
| BookingFlow.SuccessfulBooking | src/components/BookingModal.tsx:39-61 | a full successful run sends what was typed and ends idle with an empty form |
| BookingFlow.FailedBookingRetry | src/components/BookingModal.tsx:39-85 | after a failure and "Try again", the form is intact and resubmitting sends the same booking |
| Dashboard.BookingsData | src/pages/admin/AdminDashboard.tsx:27-39 | without a token, or on a non-ok response, there are no bookings; an ok body is passed on unchecked, and it is missing (`None`) exactly when a signed-in request gets an ok body that is not an array |
| Dashboard.ToursData | src/pages/admin/AdminDashboard.tsx:22-25 | the query's data, or no tours until there is some |
| Dashboard.Revenue | src/pages/admin/AdminDashboard.tsx:69 | revenue is 0 for no tours |
| Dashboard.RevenueLaws | src/pages/admin/AdminDashboard.tsx:69 | revenue adds up over a split list, and with costs in [lo, hi] lies in [n·lo, n·hi] |
| Dashboard.Stats | src/pages/admin/AdminDashboard.tsx:41-74 | total tours is the tour count; active bookings count the `booked` ones (all iff every one is booked, 0 iff none is); revenue is the cost sum |
| Dashboard.ActiveBookingsAppend | src/pages/admin/AdminDashboard.tsx:51 | adding a booking raises the active count by one exactly when it is booked |
| Dashboard.Cards | src/pages/admin/AdminDashboard.tsx:41-74 | the cards render iff the bookings value is an array (`bookings.filter` throws otherwise), and are then Stats of the tours and bookings |
| Dashboard.WrappedBodyLosesCards | src/pages/admin/AdminDashboard.tsx:35-36 | a signed-in admin whose ok body is a wrapper object gets no cards, while a failed request or a missing token shows them with no active bookings |
| Dashboard.RecentTours | src/pages/admin/AdminDashboard.tsx:170 | the first five tours in order, or all if fewer |
| Dashboard.EmptyMessageIffNoRecent | src/pages/admin/AdminDashboard.tsx:192-196 | "No tours yet" shows iff there are no tours, which is exactly when the recent list is empty |
| Navigation.LanguagesAreTheCodes | src/components/Header.tsx:14-19 | four entries, each a language code, none repeated, and every code present |
| Navigation.CurrentLang | src/components/Header.tsx:43 | an entry is found iff the language is one of the codes, and it is that code's entry |
| Navigation.OneHighlight | src/components/Header.tsx:93 | exactly one switcher entry is highlighted under a language code, none under any other string |
| Navigation.AtMostOneActive | src/components/Header.tsx:67-71 | at most one link is active, and one is iff the pathname is exactly one of the four routes |
| Navigation.NavLabelsTranslated | src/components/Header.tsx:36-41 | every nav label is a dictionary key, so it shows its stored translation |
| Navigation.Header.constructor | src/components/Header.tsx:22-23 | not scrolled, menu closed |
| Navigation.Header.OnScroll | src/components/Header.tsx:28-34 | scrolled iff scrollY > 50 |
| Navigation.Header.ToggleMenu | src/components/Header.tsx:121 | the menu button negates the menu state |
| Navigation.Header.MobileLinkClick | src/components/Header.tsx:140 | a mobile link click closes the menu |
| Navigation.Header.SelectLanguage | src/components/Header.tsx:92-93 | choosing an entry sets and stores its code, and afterwards only that entry is highlighted |
| Seqs.Filter | src/data/contactSubmissions.ts:74 | the kept elements all satisfy the predicate and every satisfying element is kept |
| Seqs.FilterLength | src/data/contactSubmissions.ts:74 | a filter keeps everything iff all elements pass, and nothing iff none does |
| Seqs.FilterMultiset | src/data/contactSubmissions.ts:74 | the filtered list holds every passing element exactly as often as the input does, and no other |
| Seqs.FindIndex | src/data/contactSubmissions.ts:67 | -1 iff nothing matches, else the first matching index |
| Seqs.SliceTo | src/pages/admin/AdminDashboard.tsx:170 | `slice(0, end)`: a prefix of length min(end, n), or n + end for a negative end |
| Strings.Trim | src/pages/admin/AdminTourForm.tsx:119-121 | the result is the input minus leading and trailing whitespace; empty iff the input is all whitespace |
| Strings.TrimIdempotent | src/pages/admin/AdminTourForm.tsx:119-121 | trimming twice equals trimming once |
| Strings.BeforeFirst | src/pages/admin/AdminTourForm.tsx:103-104 | `split(c)[0]`: the longest prefix without `c`, ending just before the first `c` |

## Left out

- Network I/O is left out.
  - Every API call is an input: `FetchOutcome`, `TourFetch`, `BookingsResponse`, or the `ok` flag of a submit.
  - The request bodies built by the tour form are not modelled. This includes the ISO conversion of the dates and the `parseFloat`/`parseInt` of cost and seats, with their NaN cases.
  - Costs and seat counts are integers.
- The 2-second `setTimeout` of the booking dialog is left out. It is the method `BookingFlow.BookingModal.SuccessTimer`, which the environment calls after a success.
- `localStorage` is a `map<string, string>` field.
  - The source has no try/catch around reading it or writing it, so a storage failure is not modelled.
  - `useLanguage` throwing outside its provider is not modelled.
- Navigation.Header.OnScroll: takes the scroll position as an integer; `window.scrollY` is a floating-point number, and the comparison with 50 is the same once a fractional position is rounded up.
- Dashboard.BookingsData: the dashboard and the bookings service read the same endpoint differently. The dashboard sends `Authorization: Bearer` and uses the body as the array (src/pages/admin/AdminDashboard.tsx:30-36). The service sends a `token` header and unwraps `data` (src/services/api.ts:146-157). Which one the back-end honours is outside the model, so both body shapes are inputs: `Ok` (an array) and `OkNotArray` (anything else, on which the render fails).
- Dashboard.Stats: the "This Month" card (src/pages/admin/AdminDashboard.tsx:57-62) is not modelled. It needs the current clock and `Date` parsing of `booking_date`.
- Localization.Resolve: a stored language naming an inherited property of JavaScript objects, such as `toString`, would make `translation[language]` return a function. The model treats every string other than the four codes as unrecognised.
- SubmissionData.AverageRatingTenths: the average is exact integer tenths, floor((20·sum + n) / 2n). This is the source's `Math.round(avg * 10) / 10` without floating-point error.
- Not modelled: the card's trip length (`getDuration`), every `toLocaleDateString` and `toLocaleString` formatting, and `toUpperCase` on the switcher label.
- The card's Book button passes its own tour to the `onBook` callback. That tour is the argument of `Catalog.ToursSection.HandleBook`; the card itself has no member for it.
- The submission store and the admin view share submission objects by reference in the source. The model copies values, so aliasing between the two is not represented.
- TourEditor.WithField requires the value to have the field's kind (text, flag, number or url list). The source's `value: any` would accept anything.
- Slider.Render requires an in-range index when there are photos. Out of range, the source would throw a TypeError on `photos[index].url`.
- Not modelled:
  - the `onError` image fallbacks that rewrite the DOM;
  - toasts;
  - the `cn` class helper;
  - the theme toggle;
  - the static pages;
  - the bookings page's own colour map;
  - the second submission list inside `ContactSubmissionsPage.tsx`.
- Catalog.Settle models a thrown value without a `message` as follows: `err.message.includes` then throws inside the handler, and only the `finally` runs. Loading ends, the error stays as the `try` cleared it, and the list keeps its previous value.

## Findings

| source | as written | input that shows it | evidently intended | confidence | as-written member | corrected member |
|---|---|---|---|---|---|---|
| src/pages/TourDetail.tsx:177-178 | each additional-information row renders `info.info_title` and `info.info_description`; the record has only the per-language fields `info_title_en`, `info_title_ru`, … (src/types/tour.ts:7-18), so both render as nothing | an entry with `info_title_en = "Meals"` and `info_description_en = "Three a day"` renders an empty heading and an empty text in every language | the localized rule used for titles: the active language's field, else English | medium (the back-end may send extra fields the type does not declare), not executed | Detail.InfoRowAsWritten (shown by Detail.InfoRowsLost) | Detail.InfoRowFor (used by Detail.InfoRows) |

=== FILE: booking.dfy ===
/** components/BookingModal.tsx: the booking dialog. Its state machine over
    `status`, `isLoading` and the form runs idle -> (loading) -> success or
    error -> idle; the API call's outcome and the 2-second timer are inputs. */
module BookingFlow {
  import opened Seqs
  import opened Localization
  import opened Tours

  datatype BookingForm = BookingForm(full_name: string, phone_number: string, seats_booked: int)

  /** The form when the modal mounts and after a successful booking. */
  const InitialBookingForm: BookingForm := BookingForm("", "", 1)

  datatype BookingStatus = Idle | Success | Error

  /** What the dialog shows. */
  datatype ModalView = Nothing | SuccessPanel | ErrorPanel | FormPanel(title: string, submitEnabled: bool)

  /** The render: nothing without a tour; otherwise the success panel, the
      error panel, or the form headed by the tour's localized title with the
      submit button disabled while loading. Whether the dialog is open at
      all is the parent's `isBookingOpen` cell (Catalog.ToursSection,
      Detail.TourDetail), not an input here. */
  function View(tour: Option<Tour>, lang: string, status: BookingStatus, isLoading: bool): (r: ModalView)
    ensures r.Nothing? <==> tour.None?
    ensures tour.Some? ==> (r.SuccessPanel? <==> status == Success) && (r.ErrorPanel? <==> status == Error)
    ensures r.FormPanel? ==> tour.Some? && status == Idle
    ensures r.FormPanel? ==> r.title == Title(tour.value, lang) && (r.submitEnabled <==> !isLoading)
    ensures r.FormPanel? && r.title == "" ==> tour.value.title.en == ""
  {
    if tour.None? then Nothing
    else match status
      case Success => SuccessPanel
      case Error => ErrorPanel
      case Idle => FormPanel(Title(tour.value, lang), !isLoading)
  }

  /** The BookingModal component's state cells. */
  class BookingModal {
    var form: BookingForm
    var isLoading: bool
    var status: BookingStatus

    /** Loading only ever happens in the idle state. */
    predicate Consistent()
      reads this
    {
      isLoading ==> status == Idle
    }

    constructor ()
      ensures form == InitialBookingForm && !isLoading && status == Idle && Consistent()
    {
      form, isLoading, status := InitialBookingForm, false, Idle;
    }

    method SetFullName(text: string)
      modifies this
      ensures form == old(form).(full_name := text)
      ensures isLoading == old(isLoading) && status == old(status)
    {
      form := form.(full_name := text);
    }

    method SetPhoneNumber(text: string)
      modifies this
      ensures form == old(form).(phone_number := text)
      ensures isLoading == old(isLoading) && status == old(status)
    {
      form := form.(phone_number := text);
    }

    method SetSeats(seats: int)
      modifies this
      ensures form == old(form).(seats_booked := seats)
      ensures isLoading == old(isLoading) && status == old(status)
    {
      form := form.(seats_booked := seats);
    }

    /** Submit start: loading on, status idle, and the booking to send is the
        tour's id with the current form. */
    method BeginSubmit(tour: Tour) returns (payload: CreateBookingData)
      modifies this
      ensures isLoading && status == Idle && Consistent()
      ensures payload == CreateBookingData(tour.id, form.full_name, form.phone_number, form.seats_booked)
      ensures form == old(form)
    {
      isLoading := true;
      status := Idle;
      payload := CreateBookingData(tour.id, form.full_name, form.phone_number, form.seats_booked);
    }

    /** Submit end: success or error by the call's outcome, loading off
        after either. */
    method FinishSubmit(ok: bool)
      modifies this
      ensures status == (if ok then Success else Error)
      ensures !isLoading && Consistent()
      ensures form == old(form)
    {
      status := if ok then Success else Error;
      isLoading := false;
    }

    /** The delayed step after a success: ask the parent to close, go back
        to idle and reset the form. */
    method SuccessTimer() returns (closeRequested: bool)
      modifies this
      ensures closeRequested && status == Idle && form == InitialBookingForm
      ensures isLoading == old(isLoading)
      ensures old(Consistent()) ==> Consistent()
    {
      closeRequested := true;
      status := Idle;
      form := InitialBookingForm;
    }

    /** "Try again", shown only on the error panel: back to idle, the form
        as it was. */
    method TryAgain()
      requires status == Error
      modifies this
      ensures status == Idle && form == old(form) && isLoading == old(isLoading)
      ensures old(Consistent()) ==> Consistent()
    {
      status := Idle;
    }
  }

  /** A whole successful booking: the payload carries what was typed, and
      afterwards the modal is idle, not loading, with an empty form. */
  method SuccessfulBooking(tour: Tour, name: string, phone: string, seats: int)
    returns (payload: CreateBookingData, closeRequested: bool, finalForm: BookingForm, finalStatus: BookingStatus)
    ensures payload == CreateBookingData(tour.id, name, phone, seats)
    ensures closeRequested && finalForm == InitialBookingForm && finalStatus == Idle
  {
    var modal := new BookingModal();
    modal.SetFullName(name);
    modal.SetPhoneNumber(phone);
    modal.SetSeats(seats);
    payload := modal.BeginSubmit(tour);
    modal.FinishSubmit(true);
    closeRequested := modal.SuccessTimer();
    finalForm, finalStatus := modal.form, modal.status;
  }

  /** A failed booking followed by "Try again": back at the idle form with
      everything typed still there, so resubmitting sends the same booking. */
  method FailedBookingRetry(tour: Tour, name: string, phone: string, seats: int)
    returns (first: CreateBookingData, second: CreateBookingData, finalForm: BookingForm, finalStatus: BookingStatus)
    ensures first == second == CreateBookingData(tour.id, name, phone, seats)
    ensures finalForm == BookingForm(name, phone, seats) && finalStatus == Idle
  {
    var modal := new BookingModal();
    modal.SetFullName(name);
    modal.SetPhoneNumber(phone);
    modal.SetSeats(seats);
    first := modal.BeginSubmit(tour);
    modal.FinishSubmit(false);
    modal.TryAgain();
    finalForm, finalStatus := modal.form, modal.status;
    second := modal.BeginSubmit(tour);
  }
}

=== FILE: card.dfy ===
/** The display decisions of TourCard.tsx: image, date locale, amenity icons
    and the details link. Title and description use Tours.Title and
    Tours.Description. The day count and date formatting are not modelled. */
module Card {
  import opened Tours

  /** The placeholder image the card shows for a tour without a usable photo. */
  const CardFallbackImage: string := "https://images.unsplash.com/photo-1596484552834-6a58f850e0a1?w=800"

  /** `imageUrl`: the first photo's url, else the placeholder; never empty. */
  function CardImage(tour: Tour): (r: string)
    ensures r != ""
    ensures tour.photos.Some? && |tour.photos.value| > 0 && tour.photos.value[0].url != "" ==> r == tour.photos.value[0].url
    ensures tour.photos.None? || |tour.photos.value| == 0 || tour.photos.value[0].url == "" ==> r == CardFallbackImage
  {
    CoverImage(tour, CardFallbackImage)
  }

  /** The locale passed to `toLocaleDateString`: Russian formatting only for
      'ru', US English for every other language, including uz and kaa. */
  function DateLocale(lang: string): (r: string)
    ensures r == "ru-RU" <==> lang == "ru"
    ensures r == "ru-RU" || r == "en-US"
  {
    if lang == "ru" then "ru-RU" else "en-US"
  }

  /** Which amenity icons the card shows. */
  datatype AmenityIcons = AmenityIcons(utensils: bool, wifi: bool, bus: bool)

  /** Utensils iff breakfast, wifi iff wifi, bus iff a non-empty transport
      description (lunch and dinner have no icon on the card). */
  function Icons(tour: Tour): (r: AmenityIcons)
    ensures r.utensils <==> tour.breakfast
    ensures r.wifi <==> tour.wifi
    ensures r.bus <==> tour.transport != ""
  {
    AmenityIcons(tour.breakfast, tour.wifi, tour.transport != "")
  }

  /** The details link `/tours/{id}`. */
  function DetailsLink(tour: Tour): (r: string)
    ensures "/tours/" <= r && r[|"/tours/"|..] == tour.id
  {
    "/tours/" + tour.id
  }
}

=== FILE: catalog.dfy ===
/** components/ToursSection.tsx: the tour list on the home and tours
    pages. The API call is an input (`FetchOutcome`); what remains is the
    decision over `tours`, `error` and `isLoading`, the `limit` cut, the
    sample-tour fallback, the render branch and the booking selection. */
module Catalog {
  import opened Seqs
  import opened Strings
  import opened Localization
  import opened Tours

  /** The tours shown when the back-end is down. */
  const SampleTours: seq<Tour> := [
    Tour("sample-1",
      LocalizedText("Nukus va Savitskiy muzeyini kashf eting", "Откройте Нукус и музей Савицкого",
                    "Discover Nukus & Savitsky Museum", "Nukus hám Savitskiy muzeyın ashıń"),
      LocalizedText(
        "Qoraqalogiston poytaxtini o'rganing va rus avangard san'atining ajoyib to'plami bilan mashhur Savitskiy muzeyiga tashrif buyuring.",
        "Исследуйте столицу Каракалпакстана и посетите всемирно известный музей Савицкого с его невероятной коллекцией русского авангардного искусства.",
        "Explore the capital of Karakalpakstan and visit the world-famous Savitsky Museum with its incredible collection of Russian avant-garde art.",
        "Qaraqalpaqstannıń paytaxtın úyreniń hám rus avangard óneriniń keremetli jıynağı menen máshhur Savitskiy muzeyına barıń."),
      true, true, false, true, "Bus", "2024-06-15", "2024-06-17", 299,
      "+998 61 223 45 67", "@bluehorizon_tours", 15, Some([]), Some([])),
    Tour("sample-2",
      LocalizedText("Orol dengizi ekspeditsiyasi", "Экспедиция к Аральскому морю",
                    "Aral Sea Expedition", "Aral teńizi ekspeditsiyası"),
      LocalizedText(
        "Orol dengizining dahshatli qoldiqlariga sayohat qiling va bu noyob ekologik sarguzashtda kema qabristoniga guvoh bo'ling.",
        "Отправьтесь к призрачным остаткам Аральского моря и станьте свидетелем кладбища кораблей в этом уникальном экологическом приключении.",
        "Journey to the haunting remains of the Aral Sea and witness the ship graveyard in this unique ecological adventure.",
        "Aral teńiziniń qorqınısh qaldıqlarına sayaxat etiń hám bul noyob ekologiyalıq macerada keme qábiristanına guwahshı bolıń."),
      true, true, true, false, "4WD Vehicle", "2024-07-01", "2024-07-03", 450,
      "+998 61 223 45 67", "@bluehorizon_tours", 8, Some([]), Some([])),
    Tour("sample-3",
      LocalizedText("Mizdaxon muqaddas sayohati", "Священное путешествие в Миздахан",
                    "Mizdakhan Sacred Journey", "Mizdaxan muqaddas sayaxatı"),
      LocalizedText(
        "Markaziy Osiyodagi eng muqaddas ziyorat joylaridan biri bo'lgan 2000 yillik tarixga ega qadimiy Mizdaxon qabristoniga tashrif buyuring.",
        "Посетите древний некрополь Миздахан, одно из самых священных мест паломничества в Центральной Азии с 2000-летней историей.",
        "Visit the ancient necropolis of Mizdakhan, one of the most sacred pilgrimage sites in Central Asia with 2000 years of history.",
        "Orta Aziyada eń muqaddas zıyarat jerlerinen biri bolǧan 2000 jıllıq tariyxqa iye qadimgi Mizdaxan qábiristanına barıń."),
      true, false, false, true, "Minibus", "2024-08-10", "2024-08-10", 150,
      "+998 61 223 45 67", "@bluehorizon_tours", 20, Some([]), Some([]))
  ]

  /** The id prefix that marks sample data. */
  const SamplePrefix: string := "sample-"

  /** The error text that selects the sample fallback. */
  const BackendDown: string := "Backend server is not running"

  /** The message shown for an error without text of its own. */
  const LoadFailed: string := "Failed to load tours"

  /** `limit ? list.slice(0, limit) : list`: a missing or zero limit keeps
      the list; any other keeps the first `limit` tours in order (a negative
      limit drops that many from the end, as `slice` does). */
  function ApplyLimit(tours: seq<Tour>, limit: Option<int>): (r: seq<Tour>)
    ensures r <= tours
    ensures limit.None? || limit.value == 0 ==> r == tours
    ensures limit.Some? && limit.value > 0 ==> |r| == if limit.value < |tours| then limit.value else |tours|
    ensures limit.Some? && limit.value < 0 ==> |r| == if |tours| + limit.value < 0 then 0 else |tours| + limit.value
  {
    if limit.None? || limit.value == 0 then tours else SliceTo(tours, limit.value)
  }

  /** What `api.getAllTours()` returned, if it returned. */
  datatype ApiData = TourArray(items: seq<Tour>) | NotArray

  /** How the call settled: with data, or by throwing a value whose
      `message` may be missing. */
  datatype FetchOutcome = Fetched(data: ApiData) | Threw(message: Option<string>)

  /** The state `fetchTours` leaves behind. */
  datatype Settled = Settled(tours: seq<Tour>, error: Option<string>)

  /** The decision `fetchTours` makes. A result is cut by the limit (non-array
      data counts as no tours). A back-end-down message gives the sample
      tours, cut the same way, and no error. Any other message becomes the
      error, or "Failed to load tours" when it is empty, and the list
      empties. A thrown value without a message makes `includes` throw
      inside the handler: the error stays cleared (the `try` cleared it
      first) and the list keeps its previous value. */
  function Settle(previous: seq<Tour>, limit: Option<int>, outcome: FetchOutcome): (r: Settled)
    ensures outcome.Fetched? ==> r.error.None?
    ensures outcome == Fetched(NotArray) ==> r.tours == []
    ensures outcome.Fetched? && outcome.data.TourArray? ==> r.tours == ApplyLimit(outcome.data.items, limit)
    ensures outcome.Threw? && outcome.message.Some? && Includes(outcome.message.value, BackendDown) ==>
              r == Settled(ApplyLimit(SampleTours, limit), None)
    ensures outcome.Threw? && outcome.message.Some? && !Includes(outcome.message.value, BackendDown) ==>
              r.tours == [] && r.error.Some? && r.error.value != "" &&
              (outcome.message.value != "" ==> r.error.value == outcome.message.value) &&
              (outcome.message.value == "" ==> r.error.value == LoadFailed)
    ensures outcome == Threw(None) ==> r == Settled(previous, None)
  {
    match outcome
    case Fetched(data) =>
      Settled(ApplyLimit(if data.TourArray? then data.items else [], limit), None)
    case Threw(None) =>
      Settled(previous, None)
    case Threw(Some(message)) =>
      if Includes(message, BackendDown) then Settled(ApplyLimit(SampleTours, limit), None)
      else Settled([], Some(if message != "" then message else LoadFailed))
  }

  /** The demo-mode notice: the first tour's id starts with "sample-". */
  predicate DemoMode(tours: seq<Tour>)
  {
    |tours| > 0 && SamplePrefix <= tours[0].id
  }

  /** The sample fallback shows the demo notice exactly when the limit
      leaves at least one tour. */
  lemma FallbackIsDemo(limit: Option<int>)
    ensures DemoMode(ApplyLimit(SampleTours, limit)) <==> ApplyLimit(SampleTours, limit) != []
  {
  }

  /** The section's body. */
  datatype SectionView = Spinner | ErrorPanel(message: string) | Grid(shown: seq<Tour>, demo: bool) | EmptyMessage

  /** Loading shows the spinner; then an error (a non-empty string) shows
      the error panel; then a non-empty list shows the grid; otherwise the
      empty message. */
  function Branch(isLoading: bool, error: Option<string>, tours: seq<Tour>): (r: SectionView)
    ensures r.Spinner? <==> isLoading
    ensures r.ErrorPanel? <==> !isLoading && error.Some? && error.value != ""
    ensures r.Grid? <==> !isLoading && (error.None? || error.value == "") && |tours| > 0
    ensures r.Grid? ==> r.shown == tours && (r.demo <==> DemoMode(tours))
    ensures r.ErrorPanel? ==> error == Some(r.message)
  {
    if isLoading then Spinner
    else if error.Some? && error.value != "" then ErrorPanel(error.value)
    else if |tours| > 0 then Grid(tours, DemoMode(tours))
    else EmptyMessage
  }

  /** After any fetch the spinner is gone, and an error panel is shown
      only for a thrown message that is not the back-end-down one. */
  lemma FetchNeverSpins(previous: seq<Tour>, limit: Option<int>, outcome: FetchOutcome)
    ensures !Branch(false, Settle(previous, limit, outcome).error, Settle(previous, limit, outcome).tours).Spinner?
    ensures Branch(false, Settle(previous, limit, outcome).error, Settle(previous, limit, outcome).tours).ErrorPanel? <==>
              outcome.Threw? && outcome.message.Some? && !Includes(outcome.message.value, BackendDown)
  {
  }

  /** The ToursSection component's state cells. */
  class ToursSection {
    const limit: Option<int>
    var tours: seq<Tour>
    var isLoading: bool
    var error: Option<string>
    var selectedTour: Option<Tour>
    var isBookingOpen: bool

    constructor (limit: Option<int>)
      ensures this.limit == limit
      ensures tours == [] && isLoading && error.None? && selectedTour.None? && !isBookingOpen
    {
      this.limit := limit;
      tours, isLoading, error, selectedTour, isBookingOpen := [], true, None, None, false;
    }

    /** The fetch effect, given how the API call settled; loading ends
        whatever the outcome. */
    method FetchTours(outcome: FetchOutcome)
      modifies this
      ensures Settled(tours, error) == Settle(old(tours), limit, outcome)
      ensures !isLoading
      ensures selectedTour == old(selectedTour) && isBookingOpen == old(isBookingOpen)
    {
      error := None;
      match outcome {
        case Fetched(data) =>
          var items := if data.TourArray? then data.items else [];
          tours := ApplyLimit(items, limit);
        case Threw(None) =>
        case Threw(Some(message)) =>
          if Includes(message, BackendDown) {
            tours := ApplyLimit(SampleTours, limit);
            error := None;
          } else {
            error := Some(if message != "" then message else LoadFailed);
            tours := [];
          }
      }
      isLoading := false;
    }

    /** `handleBook`: remember the tour and open the modal. */
    method HandleBook(tour: Tour)
      modifies this
      ensures selectedTour == Some(tour) && isBookingOpen
      ensures tours == old(tours) && isLoading == old(isLoading) && error == old(error)
    {
      selectedTour := Some(tour);
      isBookingOpen := true;
    }

    /** The modal's `onClose`: close it and forget the tour. */
    method CloseBooking()
      modifies this
      ensures selectedTour.None? && !isBookingOpen
      ensures tours == old(tours) && isLoading == old(isLoading) && error == old(error)
    {
      isBookingOpen := false;
      selectedTour := None;
    }
  }
}

=== FILE: dashboard.dfy ===
/** pages/admin/AdminDashboard.tsx: the statistics cards and the recent
    tours list, computed from the two queries' results. */
module Dashboard {
  import opened Seqs
  import opened Tours

  /** The status a booking has while it counts as active. */
  const BookedStatus: string := "booked"

  /** How many tours the "Recent Tours" card lists. */
  const RecentCount: int := 5

  /** The bookings response, as far as the query looks at it: not ok, or
      an ok body that is a bookings array or some other value (such as a
      `{success, message, data}` wrapper around the array). */
  datatype BookingsResponse = NotOk | Ok(body: seq<Booking>) | OkNotArray

  /** The bookings the page works with: the query only runs with a
      (non-empty) token, a non-ok response gives no bookings, and a query
      that has not produced data yet defaults to no bookings. An ok body is
      passed on unchecked; `None` stands for a body that is not an array. */
  function BookingsData(token: Option<string>, response: Option<BookingsResponse>): (r: Option<seq<Booking>>)
    ensures token.None? || token.value == "" ==> r == Some([])
    ensures response.None? || response.value.NotOk? ==> r == Some([])
    ensures token.Some? && token.value != "" && response.Some? && response.value.Ok? ==> r == Some(response.value.body)
    ensures r.None? <==> token.Some? && token.value != "" && response == Some(OkNotArray)
  {
    if token.None? || token.value == "" then Some([])
    else if response.None? then Some([])
    else match response.value
      case NotOk => Some([])
      case Ok(body) => Some(body)
      case OkNotArray => None
  }

  /** The tours the page works with: the query's data, or none until it
      has some. */
  function ToursData(data: Option<seq<Tour>>): (r: seq<Tour>)
    ensures data.None? ==> r == []
    ensures data.Some? ==> r == data.value
  {
    if data.Some? then data.value else []
  }

  predicate IsBooked(b: Booking)
  {
    b.status == BookedStatus
  }

  function CostOf(t: Tour): int
  {
    t.cost
  }

  /** The revenue card: the sum of every tour's cost. */
  function Revenue(tours: seq<Tour>): (r: int)
    ensures tours == [] ==> r == 0
  {
    Sum(CostOf, tours)
  }

  /** Revenue adds up over a split list, so adding a tour adds its cost; with
      every cost in [lo, hi], revenue lies between n*lo and n*hi (in
      particular it is never negative for non-negative costs). */
  lemma RevenueLaws(a: seq<Tour>, b: seq<Tour>, lo: int, hi: int)
    ensures Revenue(a + b) == Revenue(a) + Revenue(b)
    ensures (forall k :: 0 <= k < |a| ==> lo <= a[k].cost <= hi) ==> |a| * lo <= Revenue(a) <= |a| * hi
  {
    SumAppend(CostOf, a, b);
    if forall k :: 0 <= k < |a| ==> lo <= a[k].cost <= hi {
      SumBounds(CostOf, a, lo, hi);
    }
  }

  datatype DashboardStats = DashboardStats(totalTours: nat, activeBookings: nat, revenue: int)

  /** The "Total Tours", "Active Bookings" and "Revenue" cards. */
  function Stats(tours: seq<Tour>, bookings: seq<Booking>): (r: DashboardStats)
    ensures r.totalTours == |tours|
    ensures r.activeBookings <= |bookings|
    ensures r.activeBookings == |bookings| <==> forall k :: 0 <= k < |bookings| ==> bookings[k].status == BookedStatus
    ensures r.activeBookings == 0 <==> forall k :: 0 <= k < |bookings| ==> bookings[k].status != BookedStatus
    ensures r.revenue == Revenue(tours)
  {
    FilterLength(IsBooked, bookings);
    DashboardStats(|tours|, |Filter(IsBooked, bookings)|, Revenue(tours))
  }

  /** The statistics cards as rendered: `bookings.filter` throws on a value
      that is not an array, so then the render fails and no card is shown
      (`None`); otherwise the cards are Stats of the tours and bookings. */
  function Cards(tours: seq<Tour>, bookings: Option<seq<Booking>>): (r: Option<DashboardStats>)
    ensures r.None? <==> bookings.None?
    ensures r.Some? ==> r.value.totalTours == |tours| && r.value.revenue == Revenue(tours)
    ensures r.Some? ==> r.value == Stats(tours, bookings.value)
  {
    if bookings.None? then None else Some(Stats(tours, bookings.value))
  }

  /** A signed-in admin whose bookings come back as a wrapper object sees no
      cards at all, while a missing token or a failed request shows the
      cards with no active bookings. */
  lemma WrappedBodyLosesCards(tours: seq<Tour>, token: string)
    requires token != ""
    ensures Cards(tours, BookingsData(Some(token), Some(OkNotArray))).None?
    ensures Cards(tours, BookingsData(Some(token), Some(NotOk))) == Some(DashboardStats(|tours|, 0, Revenue(tours)))
    ensures Cards(tours, BookingsData(None, Some(OkNotArray))) == Some(DashboardStats(|tours|, 0, Revenue(tours)))
  {
  }

  /** Appending a booking raises "Active Bookings" by one if it is booked
      and leaves it otherwise. */
  lemma ActiveBookingsAppend(bookings: seq<Booking>, b: Booking, tours: seq<Tour>)
    ensures Stats(tours, bookings + [b]).activeBookings ==
            Stats(tours, bookings).activeBookings + (if IsBooked(b) then 1 else 0)
  {
    FilterAppend(IsBooked, bookings, [b]);
    assert [b][1..] == [];
  }

  /** `tours.slice(0, 5)`: the first five tours in order, or all of them. */
  function RecentTours(tours: seq<Tour>): (r: seq<Tour>)
    ensures r <= tours
    ensures |r| == if |tours| < RecentCount then |tours| else RecentCount
  {
    SliceTo(tours, RecentCount)
  }

  /** "No tours yet" is shown iff there are no tours, which is exactly when
      the recent list is empty. */
  predicate ShowsEmptyMessage(tours: seq<Tour>)
  {
    |tours| == 0
  }

  lemma EmptyMessageIffNoRecent(tours: seq<Tour>)
    ensures ShowsEmptyMessage(tours) <==> RecentTours(tours) == []
  {
  }
}

=== FILE: detail.dfy ===
/** TourDetail.tsx: the page state set by the fetch effect and the book
    button, and the pure choices of what to render from a loaded tour. */
module Detail {
  import opened Seqs
  import opened Localization
  import opened Tours

  /** The placeholder hero image (a wider variant than the card's). */
  const HeroFallbackImage: string := "https://images.unsplash.com/photo-1596484552834-6a58f850e0a1?w=1920"

  /** The hero image: the first photo's url, else the wide placeholder. */
  function HeroImage(tour: Tour): (r: string)
    ensures r != ""
    ensures tour.photos.Some? && |tour.photos.value| > 0 && tour.photos.value[0].url != "" ==> r == tour.photos.value[0].url
    ensures tour.photos.None? || |tour.photos.value| == 0 || tour.photos.value[0].url == "" ==> r == HeroFallbackImage
  {
    CoverImage(tour, HeroFallbackImage)
  }

  /** One row of the "included" grid: a translation key and a flag. */
  datatype Amenity = Amenity(labelKey: string, included: bool)

  /** `amenities`: breakfast, lunch, dinner, wifi, in that order, each marked
      with the tour's own flag. */
  function Amenities(tour: Tour): (r: seq<Amenity>)
    ensures |r| == 4
    ensures r[0] == Amenity("breakfast", tour.breakfast) && r[1] == Amenity("lunch", tour.lunch)
    ensures r[2] == Amenity("dinner", tour.dinner) && r[3] == Amenity("wifi", tour.wifi)
  {
    [Amenity("breakfast", tour.breakfast), Amenity("lunch", tour.lunch),
     Amenity("dinner", tour.dinner), Amenity("wifi", tour.wifi)]
  }

  /** Every amenity label is a dictionary key, so under any of the four
      languages it shows the stored translation, never the raw key. */
  lemma AmenityLabelsTranslated(tour: Tour, lang: string, i: nat)
    requires IsLanguageCode(lang) && i < 4
    ensures Amenities(tour)[i].labelKey in Translations
    ensures Resolve(Translations, lang, Amenities(tour)[i].labelKey) == FieldFor(Translations[Amenities(tour)[i].labelKey], lang).value
    ensures Resolve(Translations, lang, Amenities(tour)[i].labelKey) != Amenities(tour)[i].labelKey
  {
    assert "breakfast" in Translations && "lunch" in Translations;
    assert "dinner" in Translations && "wifi" in Translations;
    ResolveListedKey(Amenities(tour)[i].labelKey, lang);
  }

  /** The gallery: shown only with more than one photo, and then holding
      every photo except the first (which is the hero), in order. */
  function Gallery(tour: Tour): (r: Option<seq<Photo>>)
    ensures r.Some? <==> tour.photos.Some? && |tour.photos.value| > 1
    ensures r.Some? ==> |r.value| == |tour.photos.value| - 1 &&
                        forall k :: 0 <= k < |r.value| ==> r.value[k] == tour.photos.value[k + 1]
  {
    if tour.photos.Some? && |tour.photos.value| > 1 then Some(tour.photos.value[1..]) else None
  }

  /** The transport row: shown iff the tour names a transport, and then
      with that transport as its text. */
  function TransportRow(tour: Tour): (r: Option<string>)
    ensures r.Some? <==> tour.transport != ""
    ensures r.Some? ==> r.value == tour.transport
  {
    if tour.transport != "" then Some(tour.transport) else None
  }

  /** The additional-information block appears iff the list exists and is
      non-empty. */
  predicate ShowsAdditionalInfo(tour: Tour)
  {
    tour.additional_info.Some? && |tour.additional_info.value| > 0
  }

  /** One additional-information entry as the page shows it: a heading and
      a text. */
  datatype InfoRow = InfoRow(heading: string, text: string)

  /** The entry as the page is written: it reads `info.info_title` and
      `info.info_description`, properties the record does not have (it has
      one per language), so both render as nothing whatever the entry holds. */
  function InfoRowAsWritten(info: AdditionalInfo, lang: string): (r: InfoRow)
    ensures r.heading == "" && r.text == ""
  {
    InfoRow("", "")
  }

  /** The entry as evidently intended: the same localized fallback the
      title and description use, so a filled-in English text always shows. */
  function InfoRowFor(info: AdditionalInfo, lang: string): (r: InfoRow)
    ensures r.heading == Localized(info.info_title, lang) && r.text == Localized(info.info_description, lang)
    ensures info.info_title.en != "" ==> r.heading != ""
    ensures info.info_description.en != "" ==> r.text != ""
  {
    InfoRow(Localized(info.info_title, lang), Localized(info.info_description, lang))
  }

  /** An entry with an English heading and text: the page as written shows
      an empty row, the intended rendering shows both in every language. */
  lemma InfoRowsLost(lang: string)
    ensures var info := AdditionalInfo(1, LocalizedText("", "", "Meals", ""), LocalizedText("", "", "Three a day", ""), "t1");
            InfoRowAsWritten(info, lang) == InfoRow("", "") &&
            InfoRowFor(info, lang) == InfoRow("Meals", "Three a day")
  {
  }

  /** The additional-information block: one row per entry, in order. */
  function InfoRows(tour: Tour, lang: string): (r: seq<InfoRow>)
    requires ShowsAdditionalInfo(tour)
    ensures |r| == |tour.additional_info.value|
    ensures forall k :: 0 <= k < |r| ==> r[k] == InfoRowFor(tour.additional_info.value[k], lang)
  {
    seq(|tour.additional_info.value|, k requires 0 <= k < |tour.additional_info.value| =>
      InfoRowFor(tour.additional_info.value[k], lang))
  }

  /** What the page renders. */
  datatype DetailView = Spinner | NotFound | Page(tour: Tour)

  /** Loading shows the spinner; loaded without a tour shows "Tour not
      found"; otherwise the page for the loaded tour. */
  function View(isLoading: bool, tour: Option<Tour>): (r: DetailView)
    ensures r.Spinner? <==> isLoading
    ensures r.NotFound? <==> !isLoading && tour.None?
    ensures r.Page? ==> tour == Some(r.tour)
  {
    if isLoading then Spinner else if tour.None? then NotFound else Page(tour.value)
  }

  /** What `api.getTourById` settled with: the response's `data` (which may
      be missing) or a thrown error. */
  datatype TourFetch = Loaded(data: Option<Tour>) | Failed

  /** The TourDetail component's state cells. */
  class TourDetail {
    var tour: Option<Tour>
    var isLoading: bool
    var isBookingOpen: bool

    constructor ()
      ensures tour.None? && isLoading && !isBookingOpen
    {
      tour, isLoading, isBookingOpen := None, true, false;
    }

    /** The fetch effect. Without a route id it returns early and the page
        keeps loading; otherwise the data (if any) becomes the tour, an
        error leaves the tour as it was, and loading ends either way. */
    method FetchTour(id: Option<string>, outcome: TourFetch)
      modifies this
      ensures id.None? || id.value == "" ==> tour == old(tour) && isLoading == old(isLoading)
      ensures id.Some? && id.value != "" ==> !isLoading
      ensures id.Some? && id.value != "" && outcome.Loaded? ==> tour == outcome.data
      ensures outcome.Failed? ==> tour == old(tour)
      ensures isBookingOpen == old(isBookingOpen)
    {
      if id.None? || id.value == "" {
        return;
      }
      if outcome.Loaded? {
        tour := outcome.data;
      }
      isLoading := false;
    }

    method OpenBooking()
      modifies this
      ensures isBookingOpen && tour == old(tour) && isLoading == old(isLoading)
    {
      isBookingOpen := true;
    }

    method CloseBooking()
      modifies this
      ensures !isBookingOpen && tour == old(tour) && isLoading == old(isLoading)
    {
      isBookingOpen := false;
    }
  }
}

=== FILE: images.dfy ===
/** `getImageUrl` of lib/utils.ts: turn a stored image path into a URL the
    browser can load. `null` and `undefined` are both `None`. */
module Images {
  import opened Seqs

  /** The Unsplash placeholder (the scheme is split off so that its "http"
      prefix is visible to the verifier). */
  const DefaultImageUrl: string := "https://" + "images.unsplash.com/photo-1596484552834-6a58f850e0a1?w=800"

  /** The prefix under which the back-end's files are proxied. */
  const ApiPrefix: string := "/api"

  /** A missing or empty path gives the placeholder; a path starting with
      "http" is already absolute and kept; anything else is put under "/api". */
  function GetImageUrl(path: Option<string>): (r: string)
    ensures path.None? || path.value == "" ==> r == DefaultImageUrl
    ensures path.Some? && "http" <= path.value ==> r == path.value
    ensures path.Some? && path.value != "" && !("http" <= path.value) ==> r == ApiPrefix + path.value
    ensures r != "" && ("http" <= r || ApiPrefix <= r)
  {
    if path.None? || path.value == "" then
      assert DefaultImageUrl[..4] == "http";
      DefaultImageUrl
    else if "http" <= path.value then path.value
    else ApiPrefix + path.value
  }

  /** Feeding an absolute result back in returns it unchanged; this covers
      the placeholder. */
  lemma AbsoluteResultIsFixed(path: Option<string>)
    requires "http" <= GetImageUrl(path)
    ensures GetImageUrl(Some(GetImageUrl(path))) == GetImageUrl(path)
  {
  }

  /** A relative path is prefixed again on a second pass, so the function is
      not idempotent: "/uploads/a.jpg" becomes "/api/api/uploads/a.jpg". */
  lemma RelativeResultIsPrefixedTwice(p: string)
    requires p != "" && !("http" <= p)
    ensures GetImageUrl(Some(GetImageUrl(Some(p)))) == ApiPrefix + ApiPrefix + p
    ensures GetImageUrl(Some(GetImageUrl(Some(p)))) != GetImageUrl(Some(p))
  {
    var once := ApiPrefix + p;
    assert once[0] == '/';
    assert !("http" <= once);
    assert |ApiPrefix + once| > |once|;
  }
}

=== FILE: localization.dfy ===
/** The translation layer of LanguageContext.tsx: the four-language
    dictionary, the `t` resolver with its fallback order, and the provider
    that holds the active language and writes it back to browser storage. */
module Localization {
  import opened Seqs

  /** One string per supported language. Translation entries have this shape,
      and so do a tour's title and description. */
  datatype LocalizedText = LocalizedText(uz: string, ru: string, en: string, kaa: string)

  /** The `Language` union type: 'uz' | 'ru' | 'en' | 'kaa'. */
  predicate IsLanguageCode(lang: string)
  {
    lang == "uz" || lang == "ru" || lang == "en" || lang == "kaa"
  }

  /** The language used when storage holds nothing usable. */
  const DefaultLanguage: string := "en"

  /** The storage key under which the active language is persisted. */
  const StorageKey: string := "language"

  /** `text[lang]`: the field named by a language code, or `undefined` for any
      other string (the active language is not checked against the four codes). */
  function FieldFor(text: LocalizedText, lang: string): (r: Option<string>)
    ensures r.Some? <==> IsLanguageCode(lang)
    ensures lang == "en" ==> r == Some(text.en)
  {
    if lang == "uz" then Some(text.uz)
    else if lang == "ru" then Some(text.ru)
    else if lang == "en" then Some(text.en)
    else if lang == "kaa" then Some(text.kaa)
    else None
  }

  /** `text[lang] || text.en`: the active language's string when it is
      non-empty, the English one otherwise. */
  function Localized(text: LocalizedText, lang: string): (r: string)
    ensures !IsLanguageCode(lang) ==> r == text.en
    ensures IsLanguageCode(lang) && FieldFor(text, lang).value != "" ==> r == FieldFor(text, lang).value
    ensures IsLanguageCode(lang) && FieldFor(text, lang).value == "" ==> r == text.en
    ensures r == "" ==> text.en == ""
  {
    match FieldFor(text, lang)
    case Some(v) => if v != "" then v else text.en
    case None => text.en
  }

  type Dictionary = map<string, LocalizedText>

  /** The static `translations` object. */
  const Translations: Dictionary := map[
    "nav_home" := LocalizedText("Bosh sahifa", "Главная", "Home", "Bas bet"),
    "nav_tours" := LocalizedText("Sayohatlar", "Туры", "Tours", "Turlar"),
    "nav_about" := LocalizedText("Biz haqimizda", "О нас", "About", "Biz haqqımızda"),
    "nav_contact" := LocalizedText("Aloqa", "Контакты", "Contact", "Baylanıs"),
    "hero_title" := LocalizedText("O'zbekistonga sayohat", "Путешествие в Узбекистан", "Travel to Uzbekistan", "O'zbekstanǵa sayaxat"),
    "hero_subtitle" := LocalizedText("Ipak yo'lining markazida - qadimiy shaharlar, mehmonnavoz odamlar va unutilmas tajribalar sizni kutmoqda", "В сердце Шёлкового пути - древние города, гостеприимные люди и незабываемые впечатления ждут вас", "At the heart of the Silk Road - ancient cities, hospitable people and unforgettable experiences await you", "Jipek jolınıń oraylıǵında - qádiyimgi qalalar, meymandos adamlar hám umıtılmas tájiriyibelr sizdi kútip tur"),
    "hero_cta" := LocalizedText("Sayohatlarni ko'rish", "Смотреть туры", "View Tours", "Turları kóriw"),
    "tours_title" := LocalizedText("Mashhur sayohatlar", "Популярные туры", "Popular Tours", "Belgili turlar"),
    "tours_empty" := LocalizedText("Hozircha sayohatlar mavjud emas", "Туров пока нет", "No tours available yet", "Házirge turlar joq"),
    "tours_from" := LocalizedText("dan", "от", "from", "dan"),
    "tours_book" := LocalizedText("Band qilish", "Забронировать", "Book Now", "Bron qılıw"),
    "tours_details" := LocalizedText("Batafsil", "Подробнее", "Details", "Tolıq"),
    "tours_seats" := LocalizedText("o'rinlar mavjud", "мест доступно", "seats available", "orın bar"),
    "tours_days" := LocalizedText("kun", "дней", "days", "kún"),
    "features_title" := LocalizedText("Nega biz?", "Почему мы?", "Why Choose Us?", "Nege biz?"),
    "feature_guide" := LocalizedText("Tajribali gidlar", "Опытные гиды", "Expert Guides", "Tájiriybeli gidler"),
    "feature_guide_desc" := LocalizedText("Mahalliy mutaxassislar sizga eng yaxshi joylarni ko'rsatadi", "Местные эксперты покажут вам лучшие места", "Local experts will show you the best places", "Jergilikli mutaxassıslar sizge eń jaqsı jerlendi kórsetedi"),
    "feature_price" := LocalizedText("Arzon narxlar", "Доступные цены", "Affordable Prices", "Arzan baalar"),
    "feature_price_desc" := LocalizedText("Eng yaxshi narx va sifat nisbati", "Лучшее соотношение цены и качества", "Best value for your money", "Eń jaqsı baha hám sapat nisbeti"),
    "feature_support" := LocalizedText("24/7 yordam", "Поддержка 24/7", "24/7 Support", "24/7 járdem"),
    "feature_support_desc" := LocalizedText("Istalgan vaqtda sizga yordam berishga tayyormiz", "Готовы помочь вам в любое время", "Ready to help you anytime", "Qaysı waqıtta járdem beremiz"),
    "feature_safe" := LocalizedText("Xavfsiz sayohat", "Безопасные путешествия", "Safe Travel", "Qáwipsiz sayaxat"),
    "feature_safe_desc" := LocalizedText("Sizning xavfsizligingiz bizning ustuvorligimiz", "Ваша безопасность - наш приоритет", "Your safety is our priority", "Sizin qáwipsizligińiz bizin baslı máselemiz"),
    "booking_title" := LocalizedText("Sayohatni band qilish", "Забронировать тур", "Book Tour", "Turdi bron qılıw"),
    "booking_name" := LocalizedText("To'liq ismingiz", "Полное имя", "Full Name", "Tolıq atıńız"),
    "booking_phone" := LocalizedText("Telefon raqam", "Номер телефона", "Phone Number", "Telefon nomer"),
    "booking_seats" := LocalizedText("O'rinlar soni", "Количество мест", "Number of Seats", "Orın sanı"),
    "booking_submit" := LocalizedText("Yuborish", "Отправить", "Submit", "Jiberiw"),
    "booking_success" := LocalizedText("Buyurtma qabul qilindi!", "Заявка принята!", "Booking submitted!", "Buyırtpa qabıl etildi!"),
    "booking_error" := LocalizedText("Xatolik yuz berdi", "Произошла ошибка", "An error occurred", "Qátelik júz berdi"),
    "footer_rights" := LocalizedText("Barcha huquqlar himoyalangan", "Все права защищены", "All rights reserved", "Barsha huqıqlar qorǵalǵan"),
    "footer_address" := LocalizedText("Toshkent, O'zbekiston", "Ташкент, Узбекистан", "Tashkent, Uzbekistan", "Tashkent, O'zbekstan"),
    "loading" := LocalizedText("Yuklanmoqda...", "Загрузка...", "Loading...", "Júklenip atır..."),
    "close" := LocalizedText("Yopish", "Закрыть", "Close", "Jabıw"),
    "breakfast" := LocalizedText("Nonushta", "Завтрак", "Breakfast", "Erteńgi as"),
    "lunch" := LocalizedText("Tushlik", "Обед", "Lunch", "Túski as"),
    "dinner" := LocalizedText("Kechki ovqat", "Ужин", "Dinner", "Keshki as"),
    "wifi" := LocalizedText("Wi-Fi", "Wi-Fi", "Wi-Fi", "Wi-Fi"),
    "transport" := LocalizedText("Transport", "Транспорт", "Transport", "Transport"),
    "included" := LocalizedText("Kiritilgan", "Включено", "Included", "Kiredi"),
    "not_included" := LocalizedText("Kiritilmagan", "Не включено", "Not included", "Kirmeydi")
  ]

  /** `t(key)`: a key missing from the dictionary resolves to itself; a present
      key resolves to the active language's string, else the English string,
      else the key. */
  function Resolve(dict: Dictionary, lang: string, key: string): (r: string)
    ensures key !in dict ==> r == key
    ensures key in dict && IsLanguageCode(lang) && FieldFor(dict[key], lang).value != "" ==>
              r == FieldFor(dict[key], lang).value
    ensures key in dict && (!IsLanguageCode(lang) || FieldFor(dict[key], lang).value == "") ==>
              r == if dict[key].en != "" then dict[key].en else key
    ensures key != "" ==> r != ""
  {
    if key !in dict then key
    else
      var v := Localized(dict[key], lang);
      if v != "" then v else key
  }

  /** An entry that defines a non-empty string for every language. */
  predicate Complete(text: LocalizedText)
  {
    text.uz != "" && text.ru != "" && text.en != "" && text.kaa != ""
  }

  /** Every entry of the shipped dictionary is complete. */
  lemma TranslationsComplete()
    ensures forall key :: key in Translations ==> Complete(Translations[key])
  {
  }

  /** Hence, for a listed key and any of the four codes, `t` returns exactly
      the stored string and the fallbacks never fire. */
  lemma ResolveListedKey(key: string, lang: string)
    requires key in Translations && IsLanguageCode(lang)
    ensures Resolve(Translations, lang, key) == FieldFor(Translations[key], lang).value
  {
    TranslationsComplete();
  }

  /** The admin page asks for keys the dictionary lacks; each is shown as the
      raw key, whatever the language. */
  lemma AdminKeysResolveToThemselves(lang: string)
    ensures Resolve(Translations, lang, "admin_panel") == "admin_panel"
    ensures Resolve(Translations, lang, "dashboard") == "dashboard"
    ensures Resolve(Translations, lang, "sign_out") == "sign_out"
  {
    assert "admin_panel" !in Translations;
    assert "dashboard" !in Translations;
    assert "sign_out" !in Translations;
  }

  /** The language the provider starts with: the stored `language` entry when
      it is present and non-empty, else English. There is no membership check. */
  function InitialLanguage(storage: map<string, string>): (r: string)
    ensures r != ""
    ensures StorageKey in storage && storage[StorageKey] != "" ==> r == storage[StorageKey]
    ensures !(StorageKey in storage && storage[StorageKey] != "") ==> r == DefaultLanguage
  {
    if StorageKey in storage && storage[StorageKey] != "" then storage[StorageKey] else DefaultLanguage
  }

  /** LanguageProvider: the `language` state cell and the `localStorage`
      map it is persisted to. The persistence effect runs after the first
      render and after every change, so once constructed the stored entry
      always equals the active language. */
  class LanguageProvider {
    var language: string
    var storage: map<string, string>

    ghost predicate Valid()
      reads this
    {
      language != "" && StorageKey in storage && storage[StorageKey] == language
    }

    /** Mounting: read the stored value, then the effect writes it back. */
    constructor (saved: map<string, string>)
      ensures Valid()
      ensures language == InitialLanguage(saved)
      ensures storage == saved[StorageKey := language]
    {
      language := InitialLanguage(saved);
      storage := saved[StorageKey := InitialLanguage(saved)];
    }

    /** `setLanguage(lang)` followed by the persistence effect. */
    method SetLanguage(lang: string)
      requires Valid() && IsLanguageCode(lang)
      modifies this
      ensures Valid()
      ensures language == lang
      ensures storage == old(storage)[StorageKey := lang]
    {
      language := lang;
      storage := storage[StorageKey := lang];
    }

    /** `t` as the provider exposes it, bound to the active language. */
    function T(key: string): (r: string)
      reads this
      ensures key !in Translations ==> r == key
      ensures key in Translations && IsLanguageCode(language) ==> r == FieldFor(Translations[key], language).value
      ensures key in Translations && !IsLanguageCode(language) ==> r == Translations[key].en
    {
      TranslationsComplete();
      if key in Translations && IsLanguageCode(language) then
        ResolveListedKey(key, language);
        Resolve(Translations, language, key)
      else
        Resolve(Translations, language, key)
    }

    /** A page reload: a new provider mounted on the same storage starts at
        the language this one had. */
    method Reload() returns (next: LanguageProvider)
      requires Valid()
      ensures fresh(next) && next.Valid()
      ensures next.language == language && next.storage == storage
    {
      next := new LanguageProvider(storage);
    }
  }

  /** Start with empty storage, switch to Russian, then Karakalpak, and ask
      for a known and an unknown key along the way. */
  method SwitchScenario() returns (home: string, homeRu: string, homeKaa: string, unknown: string, reloaded: string)
    ensures home == "Home" && homeRu == "Главная" && homeKaa == "Bas bet"
    ensures unknown == "totally_unknown_key"
    ensures reloaded == "kaa"
  {
    assert Translations["nav_home"] == LocalizedText("Bosh sahifa", "Главная", "Home", "Bas bet");
    assert "totally_unknown_key" !in Translations;
    var p := new LanguageProvider(map[]);
    home := p.T("nav_home");
    p.SetLanguage("ru");
    homeRu := p.T("nav_home");
    p.SetLanguage("kaa");
    homeKaa := p.T("nav_home");
    unknown := p.T("totally_unknown_key");
    var q := p.Reload();
    reloaded := q.language;
  }
}

=== FILE: navigation.dfy ===
/** components/Header.tsx: the language switcher, the navigation links with
    their highlighting, and the scroll and mobile-menu state cells. */
module Navigation {
  import opened Seqs
  import opened Localization

  datatype LanguageOption = LanguageOption(code: string, name: string, flag: string)

  /** The switcher's entries, in menu order. */
  const Languages: seq<LanguageOption> := [
    LanguageOption("en", "English", "\U{1F1EC}\U{1F1E7}"),
    LanguageOption("uz", "O'zbekcha", "\U{1F1FA}\U{1F1FF}"),
    LanguageOption("ru", "Русский", "\U{1F1F7}\U{1F1FA}"),
    LanguageOption("kaa", "Qaraqalpaqsha", "\U{1F1FA}\U{1F1FF}")
  ]

  /** The list covers the `Language` union exactly: four entries, each a
      language code, no code twice, and every code present. */
  lemma LanguagesAreTheCodes(lang: string)
    ensures |Languages| == 4
    ensures forall k :: 0 <= k < |Languages| ==> IsLanguageCode(Languages[k].code)
    ensures forall k, j :: 0 <= k < j < |Languages| ==> Languages[k].code != Languages[j].code
    ensures IsLanguageCode(lang) ==> exists k :: 0 <= k < |Languages| && Languages[k].code == lang
  {
    if IsLanguageCode(lang) {
      if lang == "en" { assert Languages[0].code == lang; }
      else if lang == "uz" { assert Languages[1].code == lang; }
      else if lang == "ru" { assert Languages[2].code == lang; }
      else { assert Languages[3].code == lang; }
    }
  }

  /** `currentLang`: the entry for the active language; none for a stored
      string that is not one of the codes. */
  function CurrentLang(language: string): (r: Option<LanguageOption>)
    ensures r.Some? <==> IsLanguageCode(language)
    ensures r.Some? ==> r.value.code == language && r.value in Languages
  {
    LanguagesAreTheCodes(language);
    Find((l: LanguageOption) => l.code == language, Languages)
  }

  /** Menu entry `k` carries the highlight class. */
  predicate Highlighted(language: string, k: int)
    requires 0 <= k < |Languages|
  {
    Languages[k].code == language
  }

  /** Exactly one entry is highlighted for a language code, none for any
      other string. */
  lemma OneHighlight(language: string)
    ensures IsLanguageCode(language) ==> exists k :: 0 <= k < |Languages| && Highlighted(language, k)
    ensures forall k, j ::
              (0 <= k < |Languages| && 0 <= j < |Languages| && Highlighted(language, k) && Highlighted(language, j)) ==> k == j
    ensures !IsLanguageCode(language) ==> forall k :: 0 <= k < |Languages| ==> !Highlighted(language, k)
  {
    LanguagesAreTheCodes(language);
    if IsLanguageCode(language) {
      var k :| 0 <= k < |Languages| && Languages[k].code == language;
      assert Highlighted(language, k);
    }
  }

  /** A navigation link: its route and the translation key of its label. */
  datatype NavItem = NavItem(to: string, labelKey: string)

  const NavItems: seq<NavItem> := [
    NavItem("/", "nav_home"),
    NavItem("/tours", "nav_tours"),
    NavItem("/about", "nav_about"),
    NavItem("/contact", "nav_contact")
  ]

  /** A link is active iff the pathname equals its route exactly. */
  predicate Active(pathname: string, item: NavItem)
  {
    pathname == item.to
  }

  /** At most one link is active, and one is exactly when the pathname is
      one of the four routes (so "/tours/5" highlights nothing). */
  lemma AtMostOneActive(pathname: string)
    ensures forall k, j ::
              (0 <= k < |NavItems| && 0 <= j < |NavItems| && Active(pathname, NavItems[k]) && Active(pathname, NavItems[j])) ==> k == j
    ensures (exists k :: 0 <= k < |NavItems| && Active(pathname, NavItems[k])) <==>
              pathname in {"/", "/tours", "/about", "/contact"}
  {
    if pathname == "/" { assert Active(pathname, NavItems[0]); }
    else if pathname == "/tours" { assert Active(pathname, NavItems[1]); }
    else if pathname == "/about" { assert Active(pathname, NavItems[2]); }
    else if pathname == "/contact" { assert Active(pathname, NavItems[3]); }
  }

  /** Every link label is a dictionary key, so under a language code it
      shows the stored translation and never the raw key. */
  lemma NavLabelsTranslated(lang: string, k: int)
    requires IsLanguageCode(lang) && 0 <= k < |NavItems|
    ensures NavItems[k].labelKey in Translations
    ensures Resolve(Translations, lang, NavItems[k].labelKey) == FieldFor(Translations[NavItems[k].labelKey], lang).value
    ensures Resolve(Translations, lang, NavItems[k].labelKey) != ""
  {
    assert "nav_home" in Translations && "nav_tours" in Translations;
    assert "nav_about" in Translations && "nav_contact" in Translations;
    ResolveListedKey(NavItems[k].labelKey, lang);
  }

  /** The threshold past which the header turns solid. */
  const ScrollThreshold: int := 50

  /** The Header component's state cells, over the language provider. */
  class Header {
    const provider: LanguageProvider
    var isScrolled: bool
    var isMobileMenuOpen: bool

    constructor (provider: LanguageProvider)
      ensures this.provider == provider && !isScrolled && !isMobileMenuOpen
    {
      this.provider := provider;
      isScrolled, isMobileMenuOpen := false, false;
    }

    /** The scroll listener. */
    method OnScroll(scrollY: int)
      modifies this
      ensures isScrolled <==> scrollY > ScrollThreshold
      ensures isMobileMenuOpen == old(isMobileMenuOpen)
    {
      isScrolled := scrollY > ScrollThreshold;
    }

    /** The mobile menu button. */
    method ToggleMenu()
      modifies this
      ensures isMobileMenuOpen == !old(isMobileMenuOpen) && isScrolled == old(isScrolled)
    {
      isMobileMenuOpen := !isMobileMenuOpen;
    }

    /** A click on a link inside the mobile menu. */
    method MobileLinkClick()
      modifies this
      ensures !isMobileMenuOpen && isScrolled == old(isScrolled)
    {
      isMobileMenuOpen := false;
    }

    /** Choosing entry `k` of the switcher sets that entry's code, which the
        provider persists; afterwards that entry alone is highlighted. */
    method SelectLanguage(k: int)
      requires 0 <= k < |Languages| && provider.Valid()
      modifies provider
      ensures provider.Valid() && provider.language == Languages[k].code
      ensures provider.storage == old(provider.storage)[StorageKey := Languages[k].code]
      ensures forall j :: 0 <= j < |Languages| ==> (Highlighted(provider.language, j) <==> j == k)
    {
      LanguagesAreTheCodes(Languages[k].code);
      provider.SetLanguage(Languages[k].code);
    }
  }
}

=== FILE: seqs.dfy ===
/** Sequence operations the front-end performs through JavaScript's array
    methods (`filter`, `findIndex`, `find`, `slice`, `reduce`), each defined
    once and shared by every view that uses it. */
module Seqs {

  /** `undefined` versus a value, as `find` and optional chaining produce. */
  datatype Option<+T> = None | Some(value: T)

  /** `Array.prototype.filter`: the elements satisfying `p`, in order. */
  function Filter<T>(p: T -> bool, s: seq<T>): (r: seq<T>)
    ensures |r| <= |s|
    ensures forall k :: 0 <= k < |r| ==> r[k] in s && p(r[k])
    ensures forall k :: 0 <= k < |s| && p(s[k]) ==> s[k] in r
  {
    if s == [] then []
    else if p(s[0]) then [s[0]] + Filter(p, s[1..])
    else Filter(p, s[1..])
  }

  /** Filtering keeps every passing element as many times as it occurs and
      drops every other: the result's multiset is the input's restricted to
      `p`. */
  lemma {:induction false} FilterMultiset<T>(p: T -> bool, s: seq<T>)
    ensures forall x :: multiset(Filter(p, s))[x] == if p(x) then multiset(s)[x] else 0
  {
    if s != [] {
      FilterMultiset(p, s[1..]);
      assert s == [s[0]] + s[1..];
    }
  }

  /** `a` can be obtained from `b` by deleting elements: same relative order. */
  ghost predicate IsSubsequence<T>(a: seq<T>, b: seq<T>)
    decreases |b|
  {
    a == [] || (b != [] && if a[0] == b[0] then IsSubsequence(a[1..], b[1..]) else IsSubsequence(a, b[1..]))
  }

  /** Filtering only deletes elements; it never reorders the survivors. */
  lemma {:induction false} FilterIsSubsequence<T>(p: T -> bool, s: seq<T>)
    ensures IsSubsequence(Filter(p, s), s)
  {
    if s != [] {
      FilterIsSubsequence(p, s[1..]);
      var r := Filter(p, s[1..]);
      if !p(s[0]) && r != [] {
        assert p(r[0]);
      }
    }
  }

  /** Filtering distributes over concatenation, so the filtered list is the
      concatenation of the kept elements in their original order. */
  lemma {:induction false} FilterAppend<T>(p: T -> bool, a: seq<T>, b: seq<T>)
    ensures Filter(p, a + b) == Filter(p, a) + Filter(p, b)
  {
    if a != [] {
      assert (a + b)[0] == a[0];
      assert (a + b)[1..] == a[1..] + b;
      FilterAppend(p, a[1..], b);
    } else {
      assert a + b == b;
    }
  }

  /** Filtering keeps the whole list exactly when every element satisfies
      the predicate, and keeps nothing exactly when none does. */
  lemma {:induction false} FilterLength<T>(p: T -> bool, s: seq<T>)
    ensures |Filter(p, s)| == |s| <==> forall k :: 0 <= k < |s| ==> p(s[k])
    ensures (forall k :: 0 <= k < |s| ==> p(s[k])) ==> Filter(p, s) == s
    ensures |Filter(p, s)| == 0 <==> forall k :: 0 <= k < |s| ==> !p(s[k])
  {
    if s != [] {
      FilterLength(p, s[1..]);
      assert forall k :: 1 <= k < |s| ==> s[k] == s[1..][k - 1];
      if !p(s[0]) {
        assert |Filter(p, s)| < |s|;
      }
      if (forall k :: 0 <= k < |s| ==> p(s[k])) {
        assert forall k :: 0 <= k < |s| - 1 ==> p(s[1..][k]);
      }
    }
  }

  /** Filtering twice by the same predicate is filtering once. */
  lemma FilterIdempotent<T>(p: T -> bool, s: seq<T>)
    ensures Filter(p, Filter(p, s)) == Filter(p, s)
  {
    FilterLength(p, Filter(p, s));
  }

  /** `Array.prototype.findIndex`: the first index satisfying `p`, or -1. */
  function FindIndex<T>(p: T -> bool, s: seq<T>): (i: int)
    ensures -1 <= i < |s|
    ensures i == -1 <==> forall k :: 0 <= k < |s| ==> !p(s[k])
    ensures 0 <= i ==> p(s[i]) && forall k :: 0 <= k < i ==> !p(s[k])
  {
    if s == [] then -1
    else if p(s[0]) then 0
    else
      var j := FindIndex(p, s[1..]);
      if j == -1 then -1 else j + 1
  }

  /** `Array.prototype.find`: the first element satisfying `p`, if any. */
  function Find<T>(p: T -> bool, s: seq<T>): (r: Option<T>)
    ensures r.None? <==> forall k :: 0 <= k < |s| ==> !p(s[k])
    ensures r.Some? ==> r.value in s && p(r.value)
  {
    var i := FindIndex(p, s);
    if i == -1 then None else Some(s[i])
  }

  /** `s.slice(0, end)` with JavaScript's index rules: a negative end counts
      back from the length, and an end past the length is clamped. */
  function SliceTo<T>(s: seq<T>, end: int): (r: seq<T>)
    ensures r <= s
    ensures 0 <= end ==> |r| == if end < |s| then end else |s|
    ensures end < 0 ==> |r| == if |s| + end < 0 then 0 else |s| + end
  {
    var stop := if end < 0 then |s| + end else end;
    if stop <= 0 then [] else if stop >= |s| then s else s[..stop]
  }

  /** `s.reduce((sum, x) => sum + f(x), 0)`: a left-to-right sum. */
  function Sum<T>(f: T -> int, s: seq<T>): int
  {
    if s == [] then 0 else Sum(f, s[..|s| - 1]) + f(s[|s| - 1])
  }

  /** The sum of a concatenation is the sum of its parts. */
  lemma {:induction false} SumAppend<T>(f: T -> int, a: seq<T>, b: seq<T>)
    ensures Sum(f, a + b) == Sum(f, a) + Sum(f, b)
    decreases |b|
  {
    if b != [] {
      assert (a + b)[..|a + b| - 1] == a + b[..|b| - 1];
      SumAppend(f, a, b[..|b| - 1]);
    } else {
      assert a + b == a;
    }
  }

  /** A sum of terms each within [lo, hi] lies within [n*lo, n*hi]. */
  lemma {:induction false} SumBounds<T>(f: T -> int, s: seq<T>, lo: int, hi: int)
    requires forall k :: 0 <= k < |s| ==> lo <= f(s[k]) <= hi
    ensures |s| * lo <= Sum(f, s) <= |s| * hi
  {
    if s != [] {
      var init := s[..|s| - 1];
      SumBounds(f, init, lo, hi);
      assert |s| * lo == |init| * lo + lo;
      assert |s| * hi == |init| * hi + hi;
    }
  }
}

=== FILE: slider.dfy ===
/** components/PhotoSlider.tsx: a full-screen viewer over a tour's photos,
    with a cyclic index moved by next/previous buttons and thumbnails. */
module Slider {
  import opened Seqs
  import opened Tours

  /** JavaScript's `%` for a positive divisor: the remainder takes the sign
      of the dividend (Dafny's own `%` never goes negative). */
  function JsRem(a: int, n: int): (r: int)
    requires n > 0
    ensures a >= 0 ==> 0 <= r < n
    ensures a < 0 ==> -n < r <= 0
  {
    if a >= 0 then a % n else -((-a) % n)
  }

  /** JavaScript's truncating division, the quotient that goes with `JsRem`. */
  function JsQuot(a: int, n: int): (q: int)
    requires n > 0
    ensures a >= 0 ==> q >= 0
    ensures a < 0 ==> q <= 0
  {
    if a >= 0 then a / n else -((-a) / n)
  }

  /** Division identity: `a == n * JsQuot(a, n) + JsRem(a, n)`; with the
      sign and range of `JsRem` this pins the remainder to JavaScript's. */
  lemma JsDivision(a: int, n: int)
    requires n > 0
    ensures a == n * JsQuot(a, n) + JsRem(a, n)
  {
    if a >= 0 {
      assert a == n * (a / n) + a % n;
    } else {
      assert -a == n * ((-a) / n) + (-a) % n;
    }
  }

  /** `nextPhoto`: `(prev + 1) % photos.length`. */
  function NextIndex(i: int, n: int): int
    requires n > 0
  {
    JsRem(i + 1, n)
  }

  /** `prevPhoto`: `(prev - 1 + photos.length) % photos.length`. */
  function PrevIndex(i: int, n: int): int
    requires n > 0
  {
    JsRem(i - 1 + n, n)
  }

  /** On a valid index, next moves one step forward and wraps the last index
      to 0; it never leaves [0, n). */
  lemma NextStep(i: int, n: int)
    requires 0 <= i < n
    ensures 0 <= NextIndex(i, n) < n
    ensures i < n - 1 ==> NextIndex(i, n) == i + 1
    ensures i == n - 1 ==> NextIndex(i, n) == 0
  {
    if i < n - 1 {
      assert (i + 1) / n == 0;
    } else {
      assert (i + 1) / n == 1;
    }
  }

  /** On a valid index, previous moves one step back and wraps 0 to the last
      index; it never leaves [0, n). */
  lemma PrevStep(i: int, n: int)
    requires 0 <= i < n
    ensures 0 <= PrevIndex(i, n) < n
    ensures 0 < i ==> PrevIndex(i, n) == i - 1
    ensures i == 0 ==> PrevIndex(i, n) == n - 1
  {
    if 0 < i {
      assert (i - 1 + n) / n == 1;
    } else {
      assert (i - 1 + n) / n == 0;
    }
  }

  /** Previous undoes next, and next undoes previous. */
  lemma PrevNextInverse(i: int, n: int)
    requires 0 <= i < n
    ensures PrevIndex(NextIndex(i, n), n) == i
    ensures NextIndex(PrevIndex(i, n), n) == i
  {
    NextStep(i, n);
    PrevStep(i, n);
    NextStep(PrevIndex(i, n), n);
    PrevStep(NextIndex(i, n), n);
  }

  /** The counter text `{index + 1} / {n}`. */
  datatype Counter = Counter(position: int, total: int)

  /** What the dialog shows: the main image source, the previous/next
      buttons, the counter and, for each photo, whether its thumbnail is
      highlighted. */
  datatype SliderView = SliderView(
    mainSrc: string,
    controls: bool,
    counter: Option<Counter>,
    thumbnails: seq<bool>)

  /** The render: nothing for no photos; otherwise the current photo under
      "/api", and the controls, counter and thumbnails only with more than
      one photo, exactly the current thumbnail highlighted. */
  function Render(photos: seq<Photo>, index: int): (r: Option<SliderView>)
    requires photos == [] || 0 <= index < |photos|
    ensures r.None? <==> photos == []
    ensures r.Some? ==> r.value.mainSrc == "/api" + photos[index].url
    ensures r.Some? ==> (r.value.controls <==> |photos| > 1)
    ensures r.Some? ==> (r.value.counter.Some? <==> |photos| > 1)
    ensures r.Some? && r.value.counter.Some? ==> r.value.counter.value == Counter(index + 1, |photos|)
    ensures r.Some? && |photos| > 1 ==>
              |r.value.thumbnails| == |photos| &&
              forall k :: 0 <= k < |photos| ==> (r.value.thumbnails[k] <==> k == index)
    ensures r.Some? && |photos| <= 1 ==> r.value.thumbnails == []
  {
    if photos == [] then None
    else
      var many := |photos| > 1;
      Some(SliderView(
        "/api" + photos[index].url,
        many,
        if many then Some(Counter(index + 1, |photos|)) else None,
        if many then seq(|photos|, k => k == index) else []))
  }

  /** The slider's state: its photos (a prop) and the current index. */
  class PhotoSlider {
    const photos: seq<Photo>
    var currentIndex: int

    /** The current index points at a photo. */
    predicate InRange()
      reads this
    {
      0 <= currentIndex < |photos|
    }

    /** `useState(initialIndex)`, 0 when the prop is omitted. */
    constructor (photos: seq<Photo>, initialIndex: int)
      ensures this.photos == photos && currentIndex == initialIndex
    {
      this.photos := photos;
      currentIndex := initialIndex;
    }

    /** The next button, present only with more than one photo. */
    method Next()
      requires |photos| > 1
      modifies this
      ensures currentIndex == NextIndex(old(currentIndex), |photos|)
      ensures old(InRange()) ==> InRange()
    {
      if InRange() {
        NextStep(currentIndex, |photos|);
      }
      currentIndex := NextIndex(currentIndex, |photos|);
    }

    /** The previous button, present only with more than one photo. */
    method Prev()
      requires |photos| > 1
      modifies this
      ensures currentIndex == PrevIndex(old(currentIndex), |photos|)
      ensures old(InRange()) ==> InRange()
    {
      if InRange() {
        PrevStep(currentIndex, |photos|);
      }
      currentIndex := PrevIndex(currentIndex, |photos|);
    }

    /** A click on thumbnail `k`; thumbnails exist only with more than one
        photo, one per photo. */
    method SelectThumbnail(k: int)
      requires |photos| > 1 && 0 <= k < |photos|
      modifies this
      ensures currentIndex == k && InRange()
    {
      currentIndex := k;
    }
  }
}

=== FILE: strings.dfy ===
/** The JavaScript string operations the front-end relies on: `trim`,
    `includes` and `split(c)[0]`. `startsWith` is Dafny's prefix test `p <= s`. */
module Strings {

  /** The characters `String.prototype.trim` removes: ECMAScript's
      WhiteSpace (tab, vertical tab, form feed, space, no-break space,
      byte-order mark and the space separators) and LineTerminator. */
  predicate IsWhitespace(c: char)
  {
    var n := c as int;
    n == 0x09 || n == 0x0A || n == 0x0B || n == 0x0C || n == 0x0D || n == 0x20 ||
    n == 0xA0 || n == 0x1680 || (0x2000 <= n <= 0x200A) || n == 0x2028 || n == 0x2029 ||
    n == 0x202F || n == 0x205F || n == 0x3000 || n == 0xFEFF
  }

  predicate AllWhitespace(s: string)
  {
    forall k :: 0 <= k < |s| ==> IsWhitespace(s[k])
  }

  /** Drops leading whitespace: the result is the suffix that starts at the
      first non-whitespace character. */
  function TrimStart(s: string): (r: string)
    ensures |r| <= |s| && r == s[|s| - |r|..]
    ensures AllWhitespace(s[..|s| - |r|])
    ensures r != [] ==> !IsWhitespace(r[0])
  {
    if s != [] && IsWhitespace(s[0]) then TrimStart(s[1..]) else s
  }

  /** Drops trailing whitespace: the result is the prefix that ends at the
      last non-whitespace character. */
  function TrimEnd(s: string): (r: string)
    ensures r <= s
    ensures AllWhitespace(s[|r|..])
    ensures r != [] ==> !IsWhitespace(r[|r| - 1])
  {
    if s != [] && IsWhitespace(s[|s| - 1]) then TrimEnd(s[..|s| - 1]) else s
  }

  /** `String.prototype.trim`: the input without leading and trailing
      whitespace; the middle is kept as it is. */
  function Trim(s: string): (r: string)
    ensures exists i, j :: 0 <= i <= j <= |s| && r == s[i..j] && AllWhitespace(s[..i]) && AllWhitespace(s[j..])
    ensures r == [] <==> AllWhitespace(s)
    ensures r != [] ==> !IsWhitespace(r[0]) && !IsWhitespace(r[|r| - 1])
  {
    var e := TrimEnd(s);
    var r := TrimStart(e);
    TrimSlices(s, e, r);
    var i, j := |e| - |r|, |e|;
    assert 0 <= i <= j <= |s| && r == s[i..j] && AllWhitespace(s[..i]) && AllWhitespace(s[j..]);
    r
  }

  /** Trimming the end and then the start leaves a slice of the input with
      whitespace on both sides, empty exactly for an all-whitespace input. */
  lemma TrimSlices(s: string, e: string, r: string)
    requires e <= s && AllWhitespace(s[|e|..])
    requires |r| <= |e| && r == e[|e| - |r|..] && AllWhitespace(e[..|e| - |r|])
    requires r != [] ==> !IsWhitespace(r[0])
    ensures 0 <= |e| - |r| <= |e| <= |s| && r == s[|e| - |r|..|e|]
    ensures AllWhitespace(s[..|e| - |r|]) && AllWhitespace(s[|e|..])
    ensures r == [] <==> AllWhitespace(s)
  {
    var i, j := |e| - |r|, |e|;
    assert e == s[..j];
    assert s[..i] == e[..i];
    if r == [] {
      assert s == e[..i] + s[j..];
      AllWhitespaceAppend(e[..i], s[j..]);
    } else {
      assert r[0] == s[i];
    }
  }

  lemma AllWhitespaceAppend(a: string, b: string)
    requires AllWhitespace(a) && AllWhitespace(b)
    ensures AllWhitespace(a + b)
  {
  }

  /** Trimming an already trimmed string changes nothing. */
  lemma TrimIdempotent(s: string)
    ensures Trim(Trim(s)) == Trim(s)
  {
    var r := Trim(s);
    if r != [] {
      assert TrimEnd(r) == r;
      assert TrimStart(r) == r;
    }
  }

  /** `s.includes(sub)`: `sub` occurs somewhere in `s`. */
  predicate Includes(s: string, sub: string)
    decreases |s|
  {
    sub <= s || (s != [] && Includes(s[1..], sub))
  }

  /** `s.split(c)[0]`: everything before the first `c`, or all of `s`. */
  function BeforeFirst(s: string, c: char): (r: string)
    ensures r <= s
    ensures c !in r
    ensures |r| < |s| ==> s[|r|] == c
  {
    if s == [] || s[0] == c then [] else [s[0]] + BeforeFirst(s[1..], c)
  }
}

=== FILE: submission_data.dfy ===
/** data/contactSubmissions.ts: the module-level list of contact-form
    submissions, its seed contents, the mutating operations (prepend,
    status update of the first match, delete by id) and the statistics. */
module SubmissionData {
  import opened Seqs

  datatype Status = New | Read | Replied

  /** The status as the UI compares and displays it. */
  function StatusName(s: Status): (r: string)
    ensures r == "new" <==> s == New
    ensures r == "read" <==> s == Read
    ensures r == "replied" <==> s == Replied
  {
    match s
    case New => "new"
    case Read => "read"
    case Replied => "replied"
  }

  datatype ContactSubmission = ContactSubmission(
    id: string,
    name: string,
    email: string,
    phone: string,
    subject: string,
    message: string,
    rating: int,
    submittedAt: string,
    status: Status)

  /** What a caller supplies to `addContactSubmission`: everything except
      `id`, `submittedAt` and `status`. */
  datatype SubmissionInput = SubmissionInput(
    name: string,
    email: string,
    phone: string,
    subject: string,
    message: string,
    rating: int)

  /** The statistics card; the average rating is kept in tenths (47 stands
      for 4.7). */
  datatype SubmissionStats = SubmissionStats(total: nat, newCount: nat, averageRatingTenths: int)

  /** The three submissions the store starts with. */
  const Seed: seq<ContactSubmission> := [
    ContactSubmission("1", "Sarah Johnson", "sarah.johnson@email.com", "+1-555-0123", "Amazing Nukus Tour",
      "I had an incredible experience visiting the Savitsky Museum. The guide was very knowledgeable and the organization was perfect. Thank you for this unforgettable journey!",
      5, "2024-01-15T10:30:00Z", Read),
    ContactSubmission("2", "Dmitry Petrov", "dmitry.petrov@email.com", "+7-999-123-4567", "Aral Sea Experience",
      "The Aral Sea ship graveyard was both haunting and fascinating. Our guide explained the ecological history beautifully. Highly recommend this unique experience.",
      5, "2024-01-14T14:20:00Z", Replied),
    ContactSubmission("3", "Emma Schmidt", "emma.schmidt@email.com", "+49-30-12345678", "Mizdakhan Tour Inquiry",
      "I would like to book a tour to Mizdakhan necropolis. Could you please provide more information about the available dates and pricing?",
      4, "2024-01-13T09:15:00Z", New)
  ]

  predicate IsNew(s: ContactSubmission)
  {
    s.status == New
  }

  function RatingOf(s: ContactSubmission): int
  {
    s.rating
  }

  /** `Math.round(average * 10) / 10` with exact arithmetic, as tenths:
      floor(10 * sum / n + 1/2), and 0 for an empty store. */
  function AverageRatingTenths(subs: seq<ContactSubmission>): (r: int)
    ensures subs == [] ==> r == 0
    ensures |subs| > 0 ==>
              2 * |subs| * r <= 20 * Sum(RatingOf, subs) + |subs| < 2 * |subs| * (r + 1)
  {
    if |subs| == 0 then 0
    else
      var x, d := 20 * Sum(RatingOf, subs) + |subs|, 2 * |subs|;
      assert x == d * (x / d) + x % d && 0 <= x % d < d;
      x / d
  }

  lemma MulMonotone(x: int, y: int, d: int)
    requires d > 0 && x <= y
    ensures x * d <= y * d
  {
    assert y * d - x * d == (y - x) * d;
  }

  /** q is at most the floor of x / d when q * d does not exceed x. */
  lemma DivAtLeast(x: int, d: int, q: int)
    requires d > 0 && q * d <= x
    ensures q <= x / d
  {
    var r := x / d;
    assert x == d * r + x % d && x % d < d;
    if r < q {
      MulMonotone(r + 1, q, d);
      assert false;
    }
  }

  /** The floor of x / d is at most q when x is below (q + 1) * d. */
  lemma DivAtMost(x: int, d: int, q: int)
    requires d > 0 && x < (q + 1) * d
    ensures x / d <= q
  {
    var r := x / d;
    assert x == d * r + x % d && 0 <= x % d;
    if r > q {
      MulMonotone(q + 1, r, d);
      assert false;
    }
  }

  /** When every rating lies in [lo, hi] (the form offers 1 to 5 stars) the
      rounded average lies in [lo, hi] too. */
  lemma {:induction false} AverageWithinRatingRange(subs: seq<ContactSubmission>, lo: int, hi: int)
    requires |subs| > 0
    requires forall k :: 0 <= k < |subs| ==> lo <= subs[k].rating <= hi
    ensures 10 * lo <= AverageRatingTenths(subs) <= 10 * hi
  {
    var n := |subs|;
    SumBounds(RatingOf, subs, lo, hi);
    var sum := Sum(RatingOf, subs);
    assert 20 * (n * lo) <= 20 * sum <= 20 * (n * hi);
    assert (10 * lo) * (2 * n) == 20 * (n * lo);
    assert (10 * hi + 1) * (2 * n) == 20 * (n * hi) + 2 * n;
    DivAtLeast(20 * sum + n, 2 * n, 10 * lo);
    DivAtMost(20 * sum + n, 2 * n, 10 * hi);
  }

  /** `getSubmissionStats`. */
  function Stats(subs: seq<ContactSubmission>): (r: SubmissionStats)
    ensures r.total == |subs|
    ensures r.newCount <= r.total
    ensures r.newCount == r.total <==> forall k :: 0 <= k < |subs| ==> subs[k].status == New
    ensures r.newCount == 0 <==> forall k :: 0 <= k < |subs| ==> subs[k].status != New
    ensures subs == [] ==> r == SubmissionStats(0, 0, 0)
    ensures r.averageRatingTenths == AverageRatingTenths(subs)
  {
    FilterLength(IsNew, subs);
    SubmissionStats(|subs|, |Filter(IsNew, subs)|, AverageRatingTenths(subs))
  }

  /** Adding a submission (it goes first) raises the total by one and the
      new count by one exactly when the added submission is new. */
  lemma StatsPrepend(s: ContactSubmission, subs: seq<ContactSubmission>)
    ensures Stats([s] + subs).total == Stats(subs).total + 1
    ensures Stats([s] + subs).newCount == Stats(subs).newCount + (if s.status == New then 1 else 0)
  {
    FilterAppend(IsNew, [s], subs);
    assert [s][1..] == [];
  }

  /** The seed list: ids "1", "2", "3", exactly one of them new, average
      rating 14/3 which displays as 4.7. */
  lemma SeedFacts()
    ensures |Seed| == 3 && Seed[0].id == "1" && Seed[1].id == "2" && Seed[2].id == "3"
    ensures Stats(Seed) == SubmissionStats(3, 1, 47)
  {
    assert Filter(IsNew, Seed) == [Seed[2]] by {
      assert Seed[1..][1..] == [Seed[2]];
      assert Seed[1..] == [Seed[1], Seed[2]];
    }
    assert Seed[..2][..1] == [Seed[0]];
    assert Sum(RatingOf, Seed) == 14 by {
      var s1, s2 := Seed[..1], Seed[..2];
      assert s1[..0] == [] && s2[..1] == s1 && Seed[..2] == s2;
      assert Sum(RatingOf, s1) == 5;
      assert Sum(RatingOf, s2) == 10;
    }
  }

  /** The store after `updateSubmissionStatus(id, status)`, defined by
      recursion: the first submission with that id gets the new status. */
  function StatusUpdated(subs: seq<ContactSubmission>, id: string, status: Status): (r: seq<ContactSubmission>)
    ensures |r| == |subs|
    ensures forall k :: 0 <= k < |subs| ==> r[k] == subs[k].(status := r[k].status)
    ensures forall k :: 0 <= k < |subs| && r[k] != subs[k] ==>
              subs[k].id == id && forall j :: 0 <= j < k ==> subs[j].id != id
    ensures forall k :: 0 <= k < |subs| && subs[k].id == id && (forall j :: 0 <= j < k ==> subs[j].id != id) ==>
              r[k].status == status
    ensures (forall k :: 0 <= k < |subs| ==> subs[k].id != id) ==> r == subs
  {
    if subs == [] then []
    else if subs[0].id == id then [subs[0].(status := status)] + subs[1..]
    else [subs[0]] + StatusUpdated(subs[1..], id, status)
  }

  /** The index-assignment implementation agrees with the recursive
      definition: at the first match, replace the status; with no match,
      nothing changes. */
  lemma StatusUpdatedAtIndex(subs: seq<ContactSubmission>, id: string, status: Status, i: int)
    requires i == FindIndex((s: ContactSubmission) => s.id == id, subs)
    ensures i == -1 ==> StatusUpdated(subs, id, status) == subs
    ensures 0 <= i ==> StatusUpdated(subs, id, status) == subs[i := subs[i].(status := status)]
  {
    if 0 <= i {
      var r := StatusUpdated(subs, id, status);
      var expected := subs[i := subs[i].(status := status)];
      forall k | 0 <= k < |subs| ensures r[k] == expected[k] {
      }
    }
  }

  /** The store after `deleteContactSubmission(id)`: every submission with
      that id removed. */
  function WithoutId(subs: seq<ContactSubmission>, id: string): (r: seq<ContactSubmission>)
    ensures forall k :: 0 <= k < |r| ==> r[k].id != id && r[k] in subs
    ensures forall k :: 0 <= k < |subs| && subs[k].id != id ==> subs[k] in r
    ensures (forall k :: 0 <= k < |subs| ==> subs[k].id != id) <==> r == subs
    ensures forall x :: multiset(r)[x] == if x.id != id then multiset(subs)[x] else 0
  {
    FilterLength((s: ContactSubmission) => s.id != id, subs);
    FilterMultiset((s: ContactSubmission) => s.id != id, subs);
    Filter((s: ContactSubmission) => s.id != id, subs)
  }

  /** Deleting keeps the survivors in their original order, and deleting the
      same id twice is deleting it once. */
  lemma DeleteKeepsOrderAndIsIdempotent(subs: seq<ContactSubmission>, id: string)
    ensures IsSubsequence(WithoutId(subs, id), subs)
    ensures WithoutId(WithoutId(subs, id), id) == WithoutId(subs, id)
  {
    FilterIsSubsequence((s: ContactSubmission) => s.id != id, subs);
  }

  /** The module-level `contactSubmissions` array. */
  class SubmissionStore {
    var submissions: seq<ContactSubmission>

    constructor ()
      ensures submissions == Seed
    {
      submissions := Seed;
    }

    /** `getContactSubmissions`: a copy, same contents and order. */
    method GetAll() returns (r: seq<ContactSubmission>)
      ensures r == submissions
    {
      r := submissions;
    }

    /** `addContactSubmission`: the clock supplies `id` (as `Date.now()`) and
        `submittedAt`; the new entry goes first, with status new. */
    method Add(input: SubmissionInput, id: string, submittedAt: string) returns (created: ContactSubmission)
      modifies this
      ensures created == ContactSubmission(id, input.name, input.email, input.phone, input.subject,
                                           input.message, input.rating, submittedAt, New)
      ensures submissions == [created] + old(submissions)
    {
      created := ContactSubmission(id, input.name, input.email, input.phone, input.subject,
                                   input.message, input.rating, submittedAt, New);
      submissions := [created] + submissions;
    }

    /** `updateSubmissionStatus`: find the first index with that id and, if
        there is one, assign the status there. */
    method UpdateStatus(id: string, status: Status)
      modifies this
      ensures submissions == StatusUpdated(old(submissions), id, status)
    {
      var i := FindIndex((s: ContactSubmission) => s.id == id, submissions);
      StatusUpdatedAtIndex(submissions, id, status, i);
      if i != -1 {
        submissions := submissions[i := submissions[i].(status := status)];
      }
    }

    /** `deleteContactSubmission`: reassign the list to its filtered copy. */
    method Delete(id: string)
      modifies this
      ensures submissions == WithoutId(old(submissions), id)
    {
      submissions := Filter((s: ContactSubmission) => s.id != id, submissions);
    }

    /** `getSubmissionStats` over the current contents. */
    method GetStats() returns (r: SubmissionStats)
      ensures r == Stats(submissions)
    {
      r := SubmissionStats(|submissions|, |Filter(IsNew, submissions)|, AverageRatingTenths(submissions));
    }
  }
}

=== FILE: tour_form.dfy ===
/** pages/admin/AdminTourForm.tsx: the create/edit form for a tour. The
    record updates (one field, photo append, photo removal, loading a tour)
    are functions; the component's state cells form a class. */
module TourEditor {
  import opened Seqs
  import opened Strings
  import opened Localization
  import opened Tours

  /** The form record. Titles and descriptions are grouped per language as
      in Tours.Tour; `photos` holds plain urls. */
  datatype TourFormData = TourFormData(
    title: LocalizedText,
    description: LocalizedText,
    breakfast: bool,
    lunch: bool,
    dinner: bool,
    wifi: bool,
    transport: string,
    start_date: string,
    end_date: string,
    cost: int,
    phone_number: string,
    messanger_id: string,
    max_seats: int,
    photos: seq<string>)

  const Blank: LocalizedText := LocalizedText("", "", "", "")

  /** `initialFormData`. */
  const InitialFormData: TourFormData :=
    TourFormData(Blank, Blank, false, false, false, false, "", "", "", 0, "", "", 1, [])

  /** The keys of the form record, as `handleChange` receives them. */
  datatype FormField =
    | TitleUz | TitleRu | TitleEn | TitleKaa
    | DescriptionUz | DescriptionRu | DescriptionEn | DescriptionKaa
    | Breakfast | Lunch | Dinner | Wifi
    | Transport | StartDate | EndDate | Cost | PhoneNumber | MessangerId | MaxSeats | Photos

  /** A field's value, tagged with its kind. */
  datatype FieldValue = Text(text: string) | Flag(flag: bool) | Number(number: int) | Urls(urls: seq<string>)

  /** `formData[field]`. */
  function Get(form: TourFormData, f: FormField): FieldValue
  {
    match f
    case TitleUz => Text(form.title.uz)
    case TitleRu => Text(form.title.ru)
    case TitleEn => Text(form.title.en)
    case TitleKaa => Text(form.title.kaa)
    case DescriptionUz => Text(form.description.uz)
    case DescriptionRu => Text(form.description.ru)
    case DescriptionEn => Text(form.description.en)
    case DescriptionKaa => Text(form.description.kaa)
    case Breakfast => Flag(form.breakfast)
    case Lunch => Flag(form.lunch)
    case Dinner => Flag(form.dinner)
    case Wifi => Flag(form.wifi)
    case Transport => Text(form.transport)
    case StartDate => Text(form.start_date)
    case EndDate => Text(form.end_date)
    case Cost => Number(form.cost)
    case PhoneNumber => Text(form.phone_number)
    case MessangerId => Text(form.messanger_id)
    case MaxSeats => Number(form.max_seats)
    case Photos => Urls(form.photos)
  }

  /** The value has the kind the field is declared with. */
  predicate Fits(f: FormField, v: FieldValue)
  {
    match f
    case Breakfast | Lunch | Dinner | Wifi => v.Flag?
    case Cost | MaxSeats => v.Number?
    case Photos => v.Urls?
    case _ => v.Text?
  }

  /** Every field of the initial form is blank: empty strings, false flags,
      no photos, a cost of 0 and one seat. */
  lemma InitialFormIsBlank(f: FormField)
    ensures Fits(f, Get(InitialFormData, f))
    ensures f == Cost ==> Get(InitialFormData, f) == Number(0)
    ensures f == MaxSeats ==> Get(InitialFormData, f) == Number(1)
    ensures f != Cost && f != MaxSeats ==>
              Get(InitialFormData, f) in {Text(""), Flag(false), Urls([])}
  {
  }

  /** `{ ...prev, [field]: value }`: field `f` now reads `v`, and every other
      field reads what it read before. */
  function WithField(form: TourFormData, f: FormField, v: FieldValue): (r: TourFormData)
    requires Fits(f, v)
    ensures Get(r, f) == v
    ensures forall g :: g != f ==> Get(r, g) == Get(form, g)
  {
    match f
    case TitleUz => form.(title := form.title.(uz := v.text))
    case TitleRu => form.(title := form.title.(ru := v.text))
    case TitleEn => form.(title := form.title.(en := v.text))
    case TitleKaa => form.(title := form.title.(kaa := v.text))
    case DescriptionUz => form.(description := form.description.(uz := v.text))
    case DescriptionRu => form.(description := form.description.(ru := v.text))
    case DescriptionEn => form.(description := form.description.(en := v.text))
    case DescriptionKaa => form.(description := form.description.(kaa := v.text))
    case Breakfast => form.(breakfast := v.flag)
    case Lunch => form.(lunch := v.flag)
    case Dinner => form.(dinner := v.flag)
    case Wifi => form.(wifi := v.flag)
    case Transport => form.(transport := v.text)
    case StartDate => form.(start_date := v.text)
    case EndDate => form.(end_date := v.text)
    case Cost => form.(cost := v.number)
    case PhoneNumber => form.(phone_number := v.text)
    case MessangerId => form.(messanger_id := v.text)
    case MaxSeats => form.(max_seats := v.number)
    case Photos => form.(photos := v.urls)
  }

  /** Writing a field's own value back changes nothing, and of two writes
      to the same field the later one wins. */
  lemma WithFieldLaws(form: TourFormData, f: FormField, v: FieldValue, w: FieldValue)
    requires Fits(f, v) && Fits(f, w)
    ensures WithField(form, f, Get(form, f)) == form
    ensures WithField(WithField(form, f, v), f, w) == WithField(form, f, w)
  {
    match f
    case TitleUz =>
    case TitleRu =>
    case TitleEn =>
    case TitleKaa =>
    case DescriptionUz =>
    case DescriptionRu =>
    case DescriptionEn =>
    case DescriptionKaa =>
    case Breakfast =>
    case Lunch =>
    case Dinner =>
    case Wifi =>
    case Transport =>
    case StartDate =>
    case EndDate =>
    case Cost =>
    case PhoneNumber =>
    case MessangerId =>
    case MaxSeats =>
    case Photos =>
  }

  /** `photos.filter((_, i) => i !== index)`: drop position `index` if it
      exists; any other index keeps the list as it is. */
  function WithoutIndex(s: seq<string>, index: int): (r: seq<string>)
    ensures 0 <= index < |s| ==> r == s[..index] + s[index + 1..]
    ensures !(0 <= index < |s|) ==> r == s
  {
    if s == [] then []
    else if index == 0 then s[1..]
    else
      var rest := WithoutIndex(s[1..], index - 1);
      assert 0 < index < |s| ==> s[1..][..index - 1] == s[1..index] && s[1..][index..] == s[index + 1..];
      [s[0]] + rest
  }

  /** Removing the photo just appended restores the list. */
  lemma RemoveUndoesAppend(photos: seq<string>, url: string)
    ensures WithoutIndex(photos + [url], |photos|) == photos
  {
    assert (photos + [url])[..|photos|] == photos;
  }

  /** `photos?.map(p => p.url)`: the urls, position by position. */
  function PhotoUrls(ps: seq<Photo>): (r: seq<string>)
    ensures |r| == |ps|
    ensures forall k :: 0 <= k < |ps| ==> r[k] == ps[k].url
  {
    if ps == [] then [] else [ps[0].url] + PhotoUrls(ps[1..])
  }

  /** The form filled from an existing tour: fields copied, each date cut at
      its first 'T', photos replaced by their urls (none when missing). */
  function FormFromTour(t: Tour): (r: TourFormData)
    ensures r.title == t.title && r.description == t.description
    ensures r.breakfast == t.breakfast && r.lunch == t.lunch && r.dinner == t.dinner && r.wifi == t.wifi
    ensures r.transport == t.transport && r.cost == t.cost && r.max_seats == t.max_seats
    ensures r.phone_number == t.phone_number && r.messanger_id == t.messanger_id
    ensures r.start_date == BeforeFirst(t.start_date, 'T') && r.end_date == BeforeFirst(t.end_date, 'T')
    ensures r.start_date <= t.start_date && 'T' !in r.start_date
    ensures r.end_date <= t.end_date && 'T' !in r.end_date
    ensures t.photos.None? ==> r.photos == []
    ensures t.photos.Some? ==>
              |r.photos| == |t.photos.value| &&
              forall k :: 0 <= k < |r.photos| ==> r.photos[k] == t.photos.value[k].url
  {
    TourFormData(t.title, t.description, t.breakfast, t.lunch, t.dinner, t.wifi, t.transport,
                 BeforeFirst(t.start_date, 'T'), BeforeFirst(t.end_date, 'T'), t.cost,
                 t.phone_number, t.messanger_id, t.max_seats,
                 if t.photos.Some? then PhotoUrls(t.photos.value) else [])
  }

  /** A date that is already a plain day (no 'T') is loaded unchanged, and
      one with a time part loses exactly that part. */
  lemma DateCut(date: string)
    ensures 'T' !in date ==> BeforeFirst(date, 'T') == date
    ensures 'T' in date ==> |BeforeFirst(date, 'T')| < |date| && date[|BeforeFirst(date, 'T')|] == 'T'
  {
    var r := BeforeFirst(date, 'T');
    if |r| == |date| {
      assert r == date;
    } else {
      assert date[|r|] in date;
    }
  }

  /** The back-end endpoint for tours. */
  const TursEndpoint: string := "http://localhost:9000/turs"

  datatype HttpMethod = Post | Patch

  datatype SubmitRequest = SubmitRequest(verb: HttpMethod, url: string)

  /** `isEditing = !!id`: a route id that is present and non-empty. */
  predicate IsEditing(editId: Option<string>)
  {
    editId.Some? && editId.value != ""
  }

  /** The submit target: PATCH on the tour's own url when editing, POST on
      the collection otherwise. */
  function SubmitTarget(editId: Option<string>): (r: SubmitRequest)
    ensures r.verb == Patch <==> IsEditing(editId)
    ensures TursEndpoint <= r.url
    ensures IsEditing(editId) ==> r.url[|TursEndpoint|..] == "/" + editId.value
    ensures !IsEditing(editId) ==> r.url == TursEndpoint
  {
    if IsEditing(editId) then SubmitRequest(Patch, TursEndpoint + "/" + editId.value)
    else SubmitRequest(Post, TursEndpoint)
  }

  /** Where a successful save navigates. */
  const ToursListRoute: string := "/admin/tours"

  /** The AdminTourForm component's state cells. */
  class AdminTourForm {
    const editId: Option<string>
    var formData: TourFormData
    var newPhotoUrl: string
    var isSubmitting: bool

    constructor (editId: Option<string>)
      ensures this.editId == editId
      ensures formData == InitialFormData && newPhotoUrl == "" && !isSubmitting
    {
      this.editId := editId;
      formData, newPhotoUrl, isSubmitting := InitialFormData, "", false;
    }

    /** `handleChange(field, value)`. */
    method HandleChange(f: FormField, v: FieldValue)
      requires Fits(f, v)
      modifies this
      ensures formData == WithField(old(formData), f, v)
      ensures newPhotoUrl == old(newPhotoUrl) && isSubmitting == old(isSubmitting)
    {
      formData := WithField(formData, f, v);
    }

    /** Typing in the photo-url input. */
    method SetNewPhotoUrl(text: string)
      modifies this
      ensures newPhotoUrl == text && formData == old(formData) && isSubmitting == old(isSubmitting)
    {
      newPhotoUrl := text;
    }

    /** `addPhoto`: a non-blank input is appended trimmed and the input is
        cleared; a blank one changes nothing. */
    method AddPhoto()
      modifies this
      ensures Trim(old(newPhotoUrl)) != "" ==>
                formData == old(formData).(photos := old(formData).photos + [Trim(old(newPhotoUrl))]) &&
                newPhotoUrl == ""
      ensures Trim(old(newPhotoUrl)) == "" ==> formData == old(formData) && newPhotoUrl == old(newPhotoUrl)
      ensures isSubmitting == old(isSubmitting)
    {
      var trimmed := Trim(newPhotoUrl);
      if trimmed != "" {
        formData := formData.(photos := formData.photos + [trimmed]);
        newPhotoUrl := "";
      }
    }

    /** `removePhoto(index)`. */
    method RemovePhoto(index: int)
      modifies this
      ensures formData == old(formData).(photos := WithoutIndex(old(formData).photos, index))
      ensures newPhotoUrl == old(newPhotoUrl) && isSubmitting == old(isSubmitting)
    {
      formData := formData.(photos := WithoutIndex(formData.photos, index));
    }

    /** The effect on the fetched tour: a tour replaces the whole form;
        no tour leaves it alone. */
    method LoadExisting(existing: Option<Tour>)
      modifies this
      ensures existing.Some? ==> formData == FormFromTour(existing.value)
      ensures existing.None? ==> formData == old(formData)
      ensures newPhotoUrl == old(newPhotoUrl) && isSubmitting == old(isSubmitting)
    {
      if existing.Some? {
        formData := FormFromTour(existing.value);
      }
    }

    /** Submit start: the flag goes up and the request target is chosen. */
    method BeginSubmit() returns (request: SubmitRequest)
      modifies this
      ensures isSubmitting && request == SubmitTarget(editId)
      ensures formData == old(formData) && newPhotoUrl == old(newPhotoUrl)
    {
      isSubmitting := true;
      request := SubmitTarget(editId);
    }

    /** Submit end (`finally`): the flag goes down after either outcome, and
        only a successful save navigates back to the tour list. */
    method FinishSubmit(ok: bool) returns (navigateTo: Option<string>)
      modifies this
      ensures !isSubmitting
      ensures ok ==> navigateTo == Some(ToursListRoute)
      ensures !ok ==> navigateTo.None?
      ensures formData == old(formData) && newPhotoUrl == old(newPhotoUrl)
    {
      navigateTo := if ok then Some(ToursListRoute) else None;
      isSubmitting := false;
    }
  }
}

=== FILE: tours.dfy ===
/** The records of types/tour.ts. A tour's four `title_xx` fields are held
    as one LocalizedText (`title.xx`), and likewise its descriptions.
    `photos` and `additional_info` are optional because every view reads
    them through optional chaining. Costs and seat counts are integers. */
module Tours {
  import opened Seqs
  import opened Localization

  datatype Photo = Photo(id: int, url: string, tur_id: string)

  datatype AdditionalInfo = AdditionalInfo(
    id: int,
    info_title: LocalizedText,
    info_description: LocalizedText,
    tur_id: string)

  datatype Tour = Tour(
    id: string,
    title: LocalizedText,
    description: LocalizedText,
    breakfast: bool,
    lunch: bool,
    dinner: bool,
    wifi: bool,
    transport: string,
    start_date: string,
    end_date: string,
    cost: int,
    phone_number: string,
    messanger_id: string,
    max_seats: int,
    photos: Option<seq<Photo>>,
    additional_info: Option<seq<AdditionalInfo>>)

  datatype Booking = Booking(
    id: string,
    tur_id: string,
    full_name: string,
    phone_number: string,
    seats_booked: int,
    status: string,
    booking_date: string)

  datatype CreateBookingData = CreateBookingData(
    tur_id: string,
    full_name: string,
    phone_number: string,
    seats_booked: int)

  /** The localized-title rule `tour['title_' + language] || tour.title_en`,
      written once for the tour card, the detail page and the booking modal.
      Total in the language string: an unrecognised one reads English. */
  function Title(tour: Tour, lang: string): (r: string)
    ensures !IsLanguageCode(lang) ==> r == tour.title.en
    ensures IsLanguageCode(lang) && FieldFor(tour.title, lang).value != "" ==> r == FieldFor(tour.title, lang).value
    ensures IsLanguageCode(lang) && FieldFor(tour.title, lang).value == "" ==> r == tour.title.en
    ensures r == "" ==> tour.title.en == ""
  {
    Localized(tour.title, lang)
  }

  /** The same rule over `description_xx`, falling back to `description_en`. */
  function Description(tour: Tour, lang: string): (r: string)
    ensures !IsLanguageCode(lang) ==> r == tour.description.en
    ensures IsLanguageCode(lang) && FieldFor(tour.description, lang).value != "" ==> r == FieldFor(tour.description, lang).value
    ensures IsLanguageCode(lang) && FieldFor(tour.description, lang).value == "" ==> r == tour.description.en
    ensures r == "" ==> tour.description.en == ""
  {
    Localized(tour.description, lang)
  }

  /** `tour.photos?.[0]?.url || fallback`: the first photo's url when there is
      one and it is non-empty, the fallback otherwise. */
  function CoverImage(tour: Tour, fallback: string): (r: string)
    ensures r == fallback || (tour.photos.Some? && |tour.photos.value| > 0 && r == tour.photos.value[0].url)
    ensures tour.photos.Some? && |tour.photos.value| > 0 && tour.photos.value[0].url != "" ==> r == tour.photos.value[0].url
    ensures r == fallback <== (tour.photos.None? || |tour.photos.value| == 0 || tour.photos.value[0].url == "")
    ensures fallback != "" ==> r != ""
  {
    if tour.photos.Some? && |tour.photos.value| > 0 && tour.photos.value[0].url != "" then tour.photos.value[0].url
    else fallback
  }
}

=== FILE: triage.dfy ===
/** components/admin/ContactSubmissions.tsx: the admin view over the
    submission store, with its status filter, selection bookkeeping, badge
    colours, star rendering and button rules. */
module Triage {
  import opened Seqs
  import opened SubmissionData

  /** The filter drop-down: 'all' or one status. */
  datatype StatusFilter = All | Only(status: Status)

  predicate Passes(filter: StatusFilter, s: ContactSubmission)
  {
    filter.All? || s.status == filter.status
  }

  /** `filteredSubmissions`. */
  function Filtered(subs: seq<ContactSubmission>, filter: StatusFilter): (r: seq<ContactSubmission>)
    ensures filter.All? ==> r == subs
    ensures filter.Only? ==> forall k :: 0 <= k < |r| ==> r[k].status == filter.status && r[k] in subs
    ensures filter.Only? ==> forall k :: 0 <= k < |subs| && subs[k].status == filter.status ==> subs[k] in r
    ensures forall x :: multiset(r)[x] == if Passes(filter, x) then multiset(subs)[x] else 0
  {
    FilterLength((s: ContactSubmission) => Passes(filter, s), subs);
    FilterMultiset((s: ContactSubmission) => Passes(filter, s), subs);
    Filter((s: ContactSubmission) => Passes(filter, s), subs)
  }

  /** The filtered list keeps the store's order, and "No submissions found"
      shows exactly when no submission passes the filter: under 'all' when
      the list is empty, under a status when none has that status. */
  lemma FilteredOrderAndEmptyState(subs: seq<ContactSubmission>, filter: StatusFilter)
    ensures IsSubsequence(Filtered(subs, filter), subs)
    ensures |Filtered(subs, filter)| == 0 <==> forall k :: 0 <= k < |subs| ==> !Passes(filter, subs[k])
    ensures filter.All? ==> (|Filtered(subs, filter)| == 0 <==> subs == [])
  {
    FilterIsSubsequence((s: ContactSubmission) => Passes(filter, s), subs);
    FilterLength((s: ContactSubmission) => Passes(filter, s), subs);
  }

  const NewColor: string := "bg-blue-100 text-blue-800"
  const ReadColor: string := "bg-yellow-100 text-yellow-800"
  const RepliedColor: string := "bg-green-100 text-green-800"
  const DefaultColor: string := "bg-gray-100 text-gray-800"

  /** `getStatusColor`, over the status string it switches on. */
  function StatusColor(status: string): (r: string)
    ensures status == "new" ==> r == NewColor
    ensures status == "read" ==> r == ReadColor
    ensures status == "replied" ==> r == RepliedColor
    ensures r == DefaultColor <==> status != "new" && status != "read" && status != "replied"
  {
    match status
    case "new" => NewColor
    case "read" => ReadColor
    case "replied" => RepliedColor
    case _ => DefaultColor
  }

  /** The badge of a stored submission: the three statuses get three
      distinct colours, and never the default. */
  lemma BadgeColorsDistinct(a: Status, b: Status)
    ensures StatusColor(StatusName(a)) != DefaultColor
    ensures StatusColor(StatusName(a)) == StatusColor(StatusName(b)) <==> a == b
  {
    assert NewColor[3] == 'b' && ReadColor[3] == 'y' && RepliedColor[3] == 'g';
  }

  /** The five stars `renderStars` draws. */
  const Stars: seq<int> := [1, 2, 3, 4, 5]

  /** Star `star` is filled iff it does not exceed the rating. */
  predicate StarFilled(star: int, rating: int)
  {
    star <= rating
  }

  /** `renderStars`: one flag per star, in order, set iff the star is
      filled. */
  function RenderStars(rating: int): (r: seq<bool>)
    ensures |r| == |Stars|
    ensures forall k :: 0 <= k < |Stars| ==> (r[k] <==> StarFilled(Stars[k], rating))
  {
    seq(|Stars|, k requires 0 <= k < |Stars| => StarFilled(Stars[k], rating))
  }

  /** The filled stars are exactly the first ones, as many as the rating
      clamped to 0..5. */
  lemma FilledStars(rating: int)
    ensures forall k :: 0 <= k < |Stars| ==>
              (RenderStars(rating)[k] <==> k < (if rating < 0 then 0 else if rating > 5 then 5 else rating))
  {
    forall k | 0 <= k < |Stars|
      ensures RenderStars(rating)[k] <==> k < (if rating < 0 then 0 else if rating > 5 then 5 else rating)
    {
      assert Stars[k] == k + 1;
    }
  }

  /** "Mark as Read" is disabled iff the status is read, "Mark as Replied"
      iff it is replied; so at most one of them is disabled, and a new
      submission has both enabled. */
  predicate ReadDisabled(s: ContactSubmission)
  {
    s.status == Read
  }

  predicate RepliedDisabled(s: ContactSubmission)
  {
    s.status == Replied
  }

  lemma MarkButtons(s: ContactSubmission)
    ensures !(ReadDisabled(s) && RepliedDisabled(s))
    ensures s.status == New <==> !ReadDisabled(s) && !RepliedDisabled(s)
  {
  }

  /** The ContactSubmissions component: its state cells over the store. */
  class ContactSubmissions {
    const store: SubmissionStore
    var submissions: seq<ContactSubmission>
    var selected: Option<ContactSubmission>
    var filter: StatusFilter
    var stats: SubmissionStats

    /** Mounting: empty list, no selection, filter 'all', zero stats, then
        the mount effect loads from the store. */
    constructor (store: SubmissionStore)
      ensures this.store == store
      ensures submissions == store.submissions && stats == Stats(store.submissions)
      ensures selected.None? && filter.All?
    {
      this.store := store;
      submissions, selected, filter, stats := [], None, All, SubmissionStats(0, 0, 0);
      new;
      LoadSubmissions();
    }

    /** The rows the list shows. */
    function Visible(): (r: seq<ContactSubmission>)
      reads this
      ensures filter.All? ==> r == submissions
      ensures forall k :: 0 <= k < |r| ==> Passes(filter, r[k]) && r[k] in submissions
      ensures forall k :: 0 <= k < |submissions| && Passes(filter, submissions[k]) ==> submissions[k] in r
      ensures forall x :: multiset(r)[x] == if Passes(filter, x) then multiset(submissions)[x] else 0
    {
      Filtered(submissions, filter)
    }

    /** `loadSubmissions`: copy the store and its stats into the view. */
    method LoadSubmissions()
      modifies this
      ensures submissions == store.submissions && stats == Stats(store.submissions)
      ensures selected == old(selected) && filter == old(filter)
    {
      submissions := store.GetAll();
      stats := store.GetStats();
    }

    /** `handleStatusChange`: update the store, reload, and give the
        selected submission the new status only if its id is the one
        changed. */
    method HandleStatusChange(id: string, status: Status)
      modifies this, store
      ensures store.submissions == StatusUpdated(old(store.submissions), id, status)
      ensures submissions == store.submissions && stats == Stats(store.submissions)
      ensures old(selected).Some? && old(selected).value.id == id ==>
                selected == Some(old(selected).value.(status := status))
      ensures !(old(selected).Some? && old(selected).value.id == id) ==> selected == old(selected)
      ensures filter == old(filter)
    {
      store.UpdateStatus(id, status);
      LoadSubmissions();
      if selected.Some? && selected.value.id == id {
        selected := Some(selected.value.(status := status));
      }
    }

    /** `handleDelete`: only when the confirmation dialog was accepted;
        then delete, reload, and clear the selection only if it was the
        deleted submission. */
    method HandleDelete(id: string, confirmed: bool)
      modifies this, store
      ensures !confirmed ==> store.submissions == old(store.submissions) && submissions == old(submissions) &&
                             stats == old(stats) && selected == old(selected)
      ensures confirmed ==> store.submissions == WithoutId(old(store.submissions), id) &&
                            submissions == store.submissions && stats == Stats(store.submissions)
      ensures confirmed && old(selected).Some? && old(selected).value.id == id ==> selected.None?
      ensures !(confirmed && old(selected).Some? && old(selected).value.id == id) ==> selected == old(selected)
      ensures filter == old(filter)
    {
      if confirmed {
        store.Delete(id);
        LoadSubmissions();
        if selected.Some? && selected.value.id == id {
          selected := None;
        }
      }
    }

    /** Clicking a row selects it. */
    method Select(s: ContactSubmission)
      modifies this
      ensures selected == Some(s)
      ensures submissions == old(submissions) && filter == old(filter) && stats == old(stats)
    {
      selected := Some(s);
    }

    /** Choosing an option in the filter drop-down. */
    method SetFilter(f: StatusFilter)
      modifies this
      ensures filter == f
      ensures submissions == old(submissions) && selected == old(selected) && stats == old(stats)
    {
      filter := f;
    }
  }
}
